=== FILE: README.md ===
# Input state machines of four CircuitPython HID gadgets

This project models the main loops of four small USB input devices in Dafny.
In each loop, raw inputs are sampled every tick and turned into keyboard, mouse
and consumer-control reports and LED/display feedback:

- **MacroPad** (`macropad.dfy`). A long click of the rotary encoder opens a
  profile menu and another closes it. The menu also closes after a minute idle.
  Turning the encoder selects a profile in the menu; otherwise it selects a
  shortcut or sends volume steps. A short click runs the selected shortcut, and
  the twelve keys follow the profile's key map.
- **Lemon media buttons** (`lemon_media_buttons.dfy`). Six buttons, each with a
  short/long press classifier. A short press sends a media code and shows a
  colour; a long press of buttons 0 and 3 toggles the LEDs. It also models one
  pass of the brightness/colour adjustment loop.
- **NeoTrinkey mouse clicker** (`neotrinkey_mouse_clicker.dfy`). Releasing a pad
  cycles through seven colours and a rainbow. Holding a pad nudges the
  brightness, and the brightness sets the period of an automatic left click.
- **Wii Nunchuk adapter** (`wii_nunchuck.dfy`). The joystick and the C/Z buttons
  drive either arrow keys and B/A, or the mouse. Holding C and Z for a second
  and letting go switches modes and releases everything held.

Each loop iteration is a pure function of the state, the inputs and the time
`now` (in milliseconds). It returns the new state and the sequence of effects
(`Action`s) the firmware would perform, in order. For the MacroPad, the
NeoTrinkey and the Wii Nunchuk this function is `Step`. The Lemon loop has two:
`Tick` is the button pass outside brightness mode, and `BrightnessModeStep` is
one pass of the brightness-mode loop.

`basics.dfy` holds `Option` and Python's `(i ± 1) % n` on a positive modulus.
`hid.dfy` holds the key, consumer-control and mouse-button codes as symbolic
enumerations.

Units are scaled so that every quantity is an integer:
- seconds become milliseconds;
- pixel brightness (0.0–1.0) becomes hundredths;
- the NeoTrinkey click delay is in microseconds, because 2.0 s − 1.95 s·b is
  not a whole number of milliseconds for odd hundredths.

The comparisons keep the source's strictness:
- MacroPad: held `> 1` s, idle `> 60` s;
- Lemon: press `> 1.0` s;
- NeoTrinkey: touch `> 1.0` s, click `>=` delay;
- Wii: hold `>=` 1.0 s.

The Wii mode switches when the C+Z hold ends after at least 1 s; nothing
happens at the moment the second is reached.

## Model

| member | source | states |
|---|---|---|
| Basics.Succ | macropad.py:159 | the next index of a cyclic list: in range, `i+1` below the last index and 0 at the last |
| Basics.Pred | macropad.py:161 | the previous index of a cyclic list: in range, `i-1` above 0 and the last index at 0 |
| Basics.PredSucc | macropad.py:159-161 | a backward step undoes a forward step on every in-range index |
| Basics.SuccPred | macropad.py:159-161 | a forward step undoes a backward step on every in-range index |
| Macropad.ProfilesValid | macropad.py:19-94 | the shipped profile table is non-empty and every non-volume profile has shortcuts to cycle through |
| Macropad.Init | macropad.py:6-16 | start-up state: menu closed, profile 0, shortcut 0, encoder position and idle clock captured, profile 0 loaded |
| Macropad.InitValid | macropad.py:6-16 | the start-up state is reachable-valid for any valid profile table |
| Macropad.ItemAction | macropad.py:111-115 | a text item becomes a typed string of exactly that text and a keycode item a press of exactly that key; neither is a release-all action |
| Macropad.ProcessSequence | macropad.py:110-116 | a shortcut runs as one typed string or key press per item, in order, then exactly one release-all, which is the last action |
| Macropad.Timeout | macropad.py:127-130 | the menu closes (and reloads the current profile) exactly when open and idle for more than 60 s; otherwise nothing changes |
| Macropad.StartAfterPress | macropad.py:133-134 | the press start is recorded only on a press when none is recorded, and an existing one is kept |
| Macropad.HeldMs | macropad.py:137 | the hold lasts 0 when no start is recorded or the start is 0 (false to the truth test), and `now - start` otherwise |
| Macropad.Switch | macropad.py:132-152 | no release: only the press start changes; release after more than 1 s: menu flips, shortcut resets, idle clock restarts, menu or profile shown; shorter release: outside the menu in a shortcut profile the selected shortcut runs if its index is in range; the press start is always cleared |
| Macropad.Rotate | macropad.py:154-178 | a changed position is always recorded; in the menu the profile steps cyclically by the sign of the change and the idle clock restarts; in a shortcut profile the shortcut steps cyclically and its 1-based number is shown; otherwise one volume up/down code is sent |
| Macropad.KeyActions | macropad.py:180-190 | outside the menu in a profile with a key map, a press of a mapped key presses its keycode, a press of an unmapped key does nothing, and a release releases all keys; otherwise no effect |
| Macropad.Step | macropad.py:121-190 | the profile stays in range, the encoder position is always recorded, and while the menu is open after the tick no HID report is sent |
| Macropad.StepPreservesValid | macropad.py:127-178 | every tick keeps the profile in range, a zero shortcut while the menu is open, and any non-zero shortcut valid for a shortcut profile |
| Macropad.ShortReleaseRunsShortcut | macropad.py:149-152 | in a reachable state the range check never fails: a short release outside the menu in a shortcut profile always runs the selected shortcut, ending with release-all |
| Macropad.MenuRotationRoundTrip | macropad.py:157-164 | turning the encoder one way and back in the menu returns to the same profile, including wrap-around |
| Macropad.ShortcutRotationRoundTrip | macropad.py:166-172 | turning the encoder one way and back in a shortcut profile returns to the same shortcut, including wrap-around |
| Macropad.LongClickTwiceRestoresMenu | macropad.py:133-148 | two long clicks open and close the menu again, keep the profile, and leave shortcut 0 and no press start |
| Macropad.IdleStep | macropad.py:121-190 | a tick with no key event, no switch edge, no rotation and no timeout changes nothing and emits nothing |
| Macropad.MenuTimeoutStep | macropad.py:127-130 | an otherwise idle tick past the menu timeout only closes the menu and reloads the current profile |
| LemonMediaButtons.Classify | LemonMediaButtons.py:161-193 | a press records its start once; the long press fires iff not yet fired and more than 1 s has passed since the start; a release after a recorded press resets the button and is a short press iff no long press fired; a release with no recorded press does nothing |
| LemonMediaButtons.Init | LemonMediaButtons.py:62-71 | LEDs on, black, brightness 0.3, colour index 0, every button idle |
| LemonMediaButtons.DisplayedColor | LemonMediaButtons.py:76-80 | the strip shows the last colour while the LEDs are on and black while they are off |
| LemonMediaButtons.ApplyLedState | LemonMediaButtons.py:74-81 | the strip ends filled with the last colour when the LEDs are on (after writing the brightness) and black when off; no media code is sent |
| LemonMediaButtons.ButtonStep | LemonMediaButtons.py:161-193 | only this button's classifier state changes; a long press toggles the LEDs on buttons 0 and 3 only; a short press sends this button's code and shows its colour; a media code is sent only on a short press |
| LemonMediaButtons.Scan | LemonMediaButtons.py:161-193 | the buttons from `i` on are classified independently and earlier ones are untouched; button `j`'s code is sent iff it completes a short press; the LEDs flip iff exactly one of the LED buttons (0, 3) at or after `i` fires long; the colour becomes that of the last button to complete a short press, or stays when none does; effects are produced iff some button has one, and the strip ends on the displayed colour |
| LemonMediaButtons.Tick | LemonMediaButtons.py:161-193 | every button's classifier advances independently and validity is kept; brightness and colour index are unchanged; each button's code is sent exactly once if that button completes a short press and never otherwise; the LEDs flip iff exactly one of buttons 0 and 3 fires long; the colour becomes that of the last button (in pin order) to complete a short press, or is unchanged; the strip ends on the displayed colour whenever anything is shown |
| LemonMediaButtons.ScanSendsOnce | LemonMediaButtons.py:182-189 | a pass from button `i` on sends each of those buttons' media codes exactly once when it completes a short press and not at all otherwise |
| LemonMediaButtons.AdjustBrightness | LemonMediaButtons.py:117-127 | volume up raises the brightness by exactly 0.25, or to 1.0 if that would pass it; otherwise volume down lowers it by exactly 0.25, or to 0.01; the change is shown; neither leaves everything unchanged |
| LemonMediaButtons.CycleColor | LemonMediaButtons.py:129-145 | fast-forward steps the colour index forward and rewind back, cyclically over the ten colours (both together cancel out); a step selects that colour and the strip ends on it; neither changes nothing |
| LemonMediaButtons.BrightnessModeStep | LemonMediaButtons.py:117-145 | the brightness step followed by the colour steps on one snapshot, keeping validity; something is shown iff one of the four buttons is held, and the strip ends on the displayed colour |
| LemonMediaButtons.HoldFiresLongOnce | LemonMediaButtons.py:164-171 | a held button keeps its first start time and fires the long press exactly once, on the first tick more than 1 s after the start, and never a short press |
| LemonMediaButtons.PressCycleFiresOnce | LemonMediaButtons.py:164-193 | a press-then-release cycle reports exactly one press; it is short at release iff no tick during the hold was more than 1 s after the start; the button ends idle |
| LemonMediaButtons.LongPressTwiceRestoresLeds | LemonMediaButtons.py:170-177 | two long presses of an LED button blank and then restore the displayed colour |
| NeoTrinkeyMouseClicker.Init | NeoTrinkey_MouseClicker.py:23-47 | colour index 0, no pad touched, no touch start yet, brightness 0.1, touch and click clocks at start-up time, and the state is valid |
| NeoTrinkeyMouseClicker.Edges | NeoTrinkey_MouseClicker.py:71-79 | a newly touched pad is remembered and restarts the shared touch timer; with no new touch nothing changes |
| NeoTrinkeyMouseClicker.Nudge | NeoTrinkey_MouseClicker.py:83-91 | only the brightness changes, and only once a touch lasts more than 1 s; pad 1 raises it by exactly 0.01, or to 1.0 if that would pass it; otherwise pad 2 lowers it by exactly 0.01, or to 0 |
| NeoTrinkeyMouseClicker.Releases | NeoTrinkey_MouseClicker.py:93-104 | releasing pad 1 steps the colour index forward and pad 2 backward, cyclically over eight positions; both together cancel out; no release changes nothing |
| NeoTrinkeyMouseClicker.Display | NeoTrinkey_MouseClicker.py:106-110 | indices 0–6 fill with that colour and index 7 runs the rainbow |
| NeoTrinkeyMouseClicker.ClickDelayUs | NeoTrinkey_MouseClicker.py:124-125 | the delay is 2.0 s − 1.95 s × brightness, kept within [0.05 s, 2.0 s] |
| NeoTrinkeyMouseClicker.ClickDelayAntitone | NeoTrinkey_MouseClicker.py:121-125 | a higher brightness never gives a longer click delay |
| NeoTrinkeyMouseClicker.ClickTick | NeoTrinkey_MouseClicker.py:127-129 | a click happens iff the delay has elapsed since the last click, and it restarts the wait |
| NeoTrinkeyMouseClicker.Step | NeoTrinkey_MouseClicker.py:64-129 | validity is kept; each pad's flag ends equal to its current touch; the pixels are updated first; a click happens iff the delay for the updated brightness has elapsed |
| NeoTrinkeyMouseClicker.StepReleaseCyclesColor | NeoTrinkey_MouseClicker.py:93-104 | on a whole tick, a pad-1 release steps the colour forward, a pad-2 release backward, both or neither leave it, however long the pads were held |
| NeoTrinkeyMouseClicker.ClickRateBounds | NeoTrinkey_MouseClicker.py:124-129 | clicks are never closer than 0.05 s, and a tick at least 2.0 s after the last click always clicks |
| NeoTrinkeyMouseClicker.BothPadsLongTouchBrightens | NeoTrinkey_MouseClicker.py:83-91 | with both pads on a long touch, pad 1 wins and the brightness rises by 0.01 |
| WiiNunchuck.Init | Wii_Nunchuck.py:17-22 | keyboard mode, no hold in progress |
| WiiNunchuck.KeyAction | Wii_Nunchuck.py:30-33 | a key is pressed exactly when its condition holds and released otherwise |
| WiiNunchuck.RequestedKeys | Wii_Nunchuck.py:28-59 | left iff x < 88, right iff x > 168, down iff y < 88, up iff y > 168, B iff C, A iff Z; opposite arrows never both |
| WiiNunchuck.KeyEdges | Wii_Nunchuck.py:28-59 | one press-or-release per listed key, in order, according to its flag |
| WiiNunchuck.KeyboardMode | Wii_Nunchuck.py:28-59 | six key presses/releases; a key is pressed iff requested and released iff it is a mode key not requested |
| WiiNunchuck.KeyboardModeHeldKeys | Wii_Nunchuck.py:28-59 | afterwards each mode key is held iff the reading requests it, whatever was held before, and other keys are untouched |
| WiiNunchuck.Scale | Wii_Nunchuck.py:73-74 | `int(d * 0.15)`: 0.15·d truncated toward zero, non-zero iff |d| ≥ 7 |
| WiiNunchuck.Deadzoned | Wii_Nunchuck.py:66-70 | offsets under 10 in magnitude become 0, others pass through |
| WiiNunchuck.MouseDelta | Wii_Nunchuck.py:62-74 | each component is the deadzoned offset from centre (y inverted) scaled by 0.15 and truncated; so the motion is non-zero iff an axis is at least 10 off centre, x moves right when pushed right, and each component is at most 19 in magnitude |
| WiiNunchuck.ButtonAction | Wii_Nunchuck.py:80-88 | a mouse button is pressed exactly when its button is down and released otherwise |
| WiiNunchuck.MouseMode | Wii_Nunchuck.py:61-88 | a move comes first iff outside the deadzone and carries the scaled delta; then Z presses/releases the right button and C the left |
| WiiNunchuck.Combo | Wii_Nunchuck.py:96-112 | the hold start is recorded on the first tick both C and Z are down; the mode flips iff the hold ends after at least 1 s; a flip releases all keys and mouse buttons, and nothing else is emitted |
| WiiNunchuck.Step | Wii_Nunchuck.py:90-121 | while C and Z are both down nothing is sent; a mode switch begins with releasing all keys and buttons; each mode sends only its own device's reports |
| WiiNunchuck.KeysDownEachOnce | Wii_Nunchuck.py:28-59 | when each key is touched at most once and nothing releases all, a key ends held iff pressed, or held before and not released |
| WiiNunchuck.SwitchToMouseReleasesKeys | Wii_Nunchuck.py:103-121 | after the tick that switches to mouse mode no keyboard key is held |
| WiiNunchuck.SwitchToKeyboardReleasesButtons | Wii_Nunchuck.py:103-121 | after the tick that switches to keyboard mode no mouse button is held |
| WiiNunchuck.SwitchToKeyboardHoldsRequestedKeys | Wii_Nunchuck.py:103-121 | after the tick that switches to keyboard mode exactly the keys the reading requests are held |
| WiiNunchuck.ComboHoldCycle | Wii_Nunchuck.py:96-112 | a C+Z hold from rest records its start and switches the mode iff it lasted at least 1 s; the hold flags end cleared |

## Left out

- HID transport, the pixel and display drivers, and tone output: effects are
  returned as `Action` values.
- The numeric HID codes are not modelled. Keys, consumer codes and mouse
  buttons are symbolic, because their numeric values live in the HID library,
  which is not part of this model.
- Python floats: brightness and times are exact integers in hundredths,
  milliseconds and microseconds, so float rounding error is not modelled.
- Hardware setup, `print` calls and the `time.sleep` pauses between ticks. The
  Wii's 0.3 s pause after a mode switch comes before the mode handler of the
  same tick, so it also delays the new mode's first reports, which still use
  the joystick and button reading taken before the pause.
- MacroPad pixel colours and tones on key presses, the display rotation and text
  content. The display is reduced to which screen is shown.
- MacroPad: a shortcut profile with an empty shortcut list is excluded by
  `ValidConfig`, because turning the encoder then divides by zero in the
  firmware. `ProfilesValid` shows the shipped table has no such profile.
- MacroPad: `Write` is one action. In the HID library, which is not part of
  this model, typing a string presses and releases each character in turn,
  so a text item also releases keys pressed by earlier items of the shortcut
  (for example the GUI key before the "r" of the Windows shortcuts). Those
  per-character releases are not modelled.
- MacroPad: the stray numeric literal after the loop has no effect.
- MacroPad encoder switch: the debounced switch's `pressed` and `released`
  edges are taken as independent inputs, because the debouncer library is not
  part of this model.
- Lemon: entering and leaving brightness mode. These blocking busy-wait loops
  poll hardware, and they are the only code that changes `in_brightness_mode`,
  so that flag is not in the state.
- LemonMediaButtons.Tick: does not model the stall of the 2+4 chord. While
  buttons 2 and 4 are both held, the brightness-mode entry wait stalls the
  whole loop for up to 5 s. No button is classified during the wait, and the
  button pass afterwards uses the time read before it. For example, a press
  and release of button 4 entirely inside the wait sends nothing in the
  firmware, but sends volume-up in the model.
- Lemon brightness mode: `BrightnessModeStep` models one pass of the loop body
  on a snapshot of the four buttons it reads. The busy-waits for the colour
  buttons to be let go are left out.
- Lemon: `flash_leds` is only a blocking feedback animation.
- NeoTrinkey: the rainbow animation's pixel colours are not modelled (only that
  it runs). Neither is the unused `SHORT_PRESS_THRESHOLD`, `TOUCH_DEBOUNCE` or
  `time_since_touch`.
- NeoTrinkeyMouseClicker.Step: each pad is sampled once per tick. The
  firmware reads each pad afresh three times per iteration (for the touch
  edge, the release and the flag reset). If a pad is lifted after the release
  check but before the flag reset, the firmware clears its flag without
  stepping the colour, so that release is lost. The model steps the colour on
  the next tick, as `StepReleaseCyclesColor` states.
- NeoTrinkey: the `touched` timestamp is kept in the state but nothing reads it.

=== FILE: basics.dfy ===
/** Small building blocks shared by the four device models. */
module Basics {

  /** A value that may be absent (Python's `None`). */
  datatype Option<T> = None | Some(value: T)

  /** Python's `(i + 1) % n` for a positive modulus: the next index of a cyclic list. */
  function Succ(i: int, n: nat): (r: nat)
    requires n > 0
    ensures r < n
    ensures 0 <= i < n - 1 ==> r == i + 1
    ensures i == n - 1 ==> r == 0
  {
    (i + 1) % n
  }

  /** Python's `(i - 1) % n` for a positive modulus: the previous index of a cyclic list. */
  function Pred(i: int, n: nat): (r: nat)
    requires n > 0
    ensures r < n
    ensures 0 < i < n ==> r == i - 1
    ensures i == 0 ==> r == n - 1
  {
    (i - 1) % n
  }

  /** One cyclic step forwards or backwards, as chosen by the sign of a change. */
  function StepBy(i: int, n: nat, forward: bool): (r: nat)
    requires n > 0
    ensures r < n
    ensures forward ==> r == Succ(i, n)
    ensures !forward ==> r == Pred(i, n)
  {
    if forward then Succ(i, n) else Pred(i, n)
  }

  /** A step back undoes a step forward on an in-range index. */
  lemma PredSucc(i: int, n: nat)
    requires 0 <= i < n
    ensures Pred(Succ(i, n), n) == i
  {
  }

  /** A step forward undoes a step back on an in-range index. */
  lemma SuccPred(i: int, n: nat)
    requires 0 <= i < n
    ensures Succ(Pred(i, n), n) == i
  {
  }

  function Min(a: int, b: int): (r: int)
    ensures r <= a && r <= b
    ensures r == a || r == b
  {
    if a <= b then a else b
  }

  function Max(a: int, b: int): (r: int)
    ensures r >= a && r >= b
    ensures r == a || r == b
  {
    if a >= b then a else b
  }

  function Abs(a: int): (r: nat)
    ensures r == a || r == -a
  {
    if a < 0 then -a else a
  }
}

=== FILE: hid.dfy ===
/**
 * Symbolic names of the USB HID usages the devices emit. The numeric codes
 * belong to the HID library and are not modelled: the devices only ever pass
 * these names through.
 */
module Hid {

  /** Keyboard keys (the adafruit_hid `Keycode` names used by the devices). */
  datatype Key =
    | One | Two | Three | Four | Five | Six | Seven | Eight | Nine | Zero
    | Minus | Equals
    | A | B | D | E | Q | S | W
    | Shift | Space | Return | Gui | Control | Alt
    | LeftArrow | RightArrow | DownArrow | UpArrow

  /** Consumer-control usages (the `ConsumerControlCode` names used by the devices). */
  datatype ConsumerCode =
    | VolumeIncrement | VolumeDecrement | Mute | PlayPause | FastForward | Rewind

  /** Mouse buttons. */
  datatype MouseButton = LeftButton | RightButton
}

=== FILE: lemon_media_buttons.dfy ===
/**
 * The six-button media controller: a per-button short/long press classifier
 * driving consumer-control codes and LED feedback, and the arithmetic of
 * the brightness/colour adjustment mode.
 *
 * Brightness is kept in hundredths (0.3 is 30). Times are milliseconds.
 */
module LemonMediaButtons {
  import opened Basics
  import opened Hid

  const ButtonCount: nat := 6
  /** A press becomes long once it has lasted more than this many milliseconds. */
  const LongPressMs: nat := 1000
  /** Brightness bounds and step of the brightness mode, in hundredths. */
  const MinBrightness: int := 1
  const MaxBrightness: int := 100
  const BrightnessStep: int := 25

  /** An RGBW pixel colour. */
  datatype Color = Color(r: nat, g: nat, b: nat, w: nat)

  const Red := Color(255, 0, 0, 0)
  const Orange := Color(255, 127, 0, 0)
  const Yellow := Color(255, 255, 0, 0)
  const Green := Color(0, 255, 0, 0)
  const Cyan := Color(0, 255, 255, 0)
  const Blue := Color(0, 0, 255, 0)
  const Black := Color(0, 0, 0, 0)

  /** The colour shown after a short press of each button. */
  const ColorMap: seq<Color> := [Red, Orange, Yellow, Green, Cyan, Blue]

  /** The colours the brightness mode cycles through. */
  const BrightnessModeColors: seq<Color> :=
    [ Red, Orange, Yellow, Green, Cyan, Blue,
      Color(255, 0, 255, 0), Color(127, 0, 255, 0), Color(255, 192, 203, 0), Color(255, 255, 255, 0) ]

  /** The consumer code each button sends on a short press. */
  const ButtonKeys: seq<ConsumerCode> :=
    [Rewind, Mute, VolumeDecrement, FastForward, VolumeIncrement, PlayPause]

  /** One button's classifier state: when the current press began, and whether it already fired long. */
  datatype Slot = Slot(start: Option<nat>, longFired: bool)

  const Idle := Slot(None, false)

  /** What the classifier recognised on one tick. */
  datatype Event = NoEvent | LongPress | ShortPress

  /**
   * One tick of one button's classifier. A press records its start on its
   * first pressed tick; the long press fires once, on the first tick that is
   * more than `LongPressMs` past the start; a release after a recorded press
   * is a short press unless the long press fired, and resets the button.
   */
  function Classify(s: Slot, pressed: bool, now: nat): (r: (Slot, Event))
    ensures pressed && s.start.Some? ==> r.0.start == s.start
    ensures pressed && s.start.None? ==> r.0.start == Some(now)
    ensures pressed ==> (r.1 == LongPress <==> !s.longFired && now - r.0.start.value > LongPressMs)
    ensures pressed ==> r.1 != ShortPress
    ensures pressed ==> (r.0.longFired <==> s.longFired || r.1 == LongPress)
    ensures !pressed && s.start.Some? ==> r.0 == Idle
    ensures !pressed && s.start.None? ==> r.0 == s
    ensures !pressed ==> (r.1 == ShortPress <==> s.start.Some? && !s.longFired)
    ensures !pressed ==> r.1 != LongPress
  {
    if pressed then
      var start := if s.start.None? then now else s.start.value;
      if now - start > LongPressMs && !s.longFired then
        (Slot(Some(start), true), LongPress)
      else
        (Slot(Some(start), s.longFired), NoEvent)
    else if s.start.Some? then
      (Idle, if !s.longFired then ShortPress else NoEvent)
    else
      (s, NoEvent)
  }

  /** The controller's globals. */
  datatype State = State(
    ledEnabled: bool,
    lastColor: Color,
    brightness: int,
    colorIndex: nat,
    slots: seq<Slot>)

  /** Effects on the consumer control and the pixel strip. */
  datatype Action =
    | Send(code: ConsumerCode)
    | SetBrightness(level: int)
    | Fill(color: Color)

  function Init(): (st: State)
    ensures Valid(st)
    ensures st.ledEnabled && st.lastColor == Black && st.brightness == 30 && st.colorIndex == 0
    ensures forall i :: 0 <= i < ButtonCount ==> st.slots[i] == Idle
  {
    State(true, Black, 30, 0, seq(ButtonCount, _ => Idle))
  }

  predicate Valid(st: State)
  {
    && |st.slots| == ButtonCount
    && MinBrightness <= st.brightness <= MaxBrightness
    && st.colorIndex < |BrightnessModeColors|
  }

  /** The colour the strip shows: the last colour while the LEDs are on, black otherwise. */
  function DisplayedColor(st: State): (c: Color)
    ensures st.ledEnabled ==> c == st.lastColor
    ensures !st.ledEnabled ==> c == Black
  {
    if st.ledEnabled then st.lastColor else Black
  }

  /**
   * Pushes the LED state to the strip. The brightness is only written while
   * the LEDs are on; the strip ends up filled with the displayed colour.
   */
  function ApplyLedState(st: State): (acts: seq<Action>)
    ensures |acts| > 0 && acts[|acts| - 1] == Fill(DisplayedColor(st))
    ensures st.ledEnabled ==> SetBrightness(st.brightness) in acts
    ensures !st.ledEnabled ==> forall a :: a in acts ==> a.Fill?
    ensures forall a :: a in acts ==> !a.Send?
  {
    if st.ledEnabled then [SetBrightness(st.brightness), Fill(st.lastColor)] else [Fill(Black)]
  }

  /** The buttons whose long press toggles the LEDs. */
  predicate TogglesLeds(i: nat)
  {
    i == 0 || i == 3
  }

  /** One button's handling within a loop iteration. */
  function ButtonStep(st: State, i: nat, pressed: bool, now: nat): (r: (State, seq<Action>))
    requires |st.slots| == ButtonCount && i < ButtonCount
    ensures |r.0.slots| == ButtonCount
    ensures r.0.slots[i] == Classify(st.slots[i], pressed, now).0
    ensures forall j :: 0 <= j < ButtonCount && j != i ==> r.0.slots[j] == st.slots[j]
    ensures r.0.brightness == st.brightness && r.0.colorIndex == st.colorIndex
    ensures Classify(st.slots[i], pressed, now).1 == NoEvent ==>
              r.0.ledEnabled == st.ledEnabled && r.0.lastColor == st.lastColor && r.1 == []
    ensures Classify(st.slots[i], pressed, now).1 == LongPress && TogglesLeds(i) ==>
              && r.0.ledEnabled == !st.ledEnabled
              && r.0.lastColor == st.lastColor
              && r.1 == ApplyLedState(r.0)
    ensures Classify(st.slots[i], pressed, now).1 == LongPress && !TogglesLeds(i) ==>
              r.0.ledEnabled == st.ledEnabled && r.0.lastColor == st.lastColor && r.1 == []
    ensures Classify(st.slots[i], pressed, now).1 == ShortPress ==>
              && r.0.ledEnabled == st.ledEnabled
              && r.0.lastColor == ColorMap[i % |ColorMap|]
              && r.1 == [Send(ButtonKeys[i])] + ApplyLedState(r.0)
    ensures forall a :: a in r.1 && a.Send? ==>
              a == Send(ButtonKeys[i]) && Classify(st.slots[i], pressed, now).1 == ShortPress
  {
    var (slot, ev) := Classify(st.slots[i], pressed, now);
    var s1 := st.(slots := st.slots[i := slot]);
    match ev
    case NoEvent => (s1, [])
    case LongPress =>
      if TogglesLeds(i) then
        var s2 := s1.(ledEnabled := !s1.ledEnabled);
        (s2, ApplyLedState(s2))
      else
        (s1, [])
    case ShortPress =>
      var s2 := s1.(lastColor := ColorMap[i % |ColorMap|]);
      (s2, [Send(ButtonKeys[i])] + ApplyLedState(s2))
  }

  /** Whether button `j` completes a short press on this tick. */
  predicate ShortAt(st: State, pressed: seq<bool>, now: nat, j: nat)
    requires |st.slots| == ButtonCount && |pressed| == ButtonCount && j < ButtonCount
  {
    Classify(st.slots[j], pressed[j], now).1 == ShortPress
  }

  /** Whether button `j` fires its long press on this tick. */
  predicate LongAt(st: State, pressed: seq<bool>, now: nat, j: nat)
    requires |st.slots| == ButtonCount && |pressed| == ButtonCount && j < ButtonCount
  {
    Classify(st.slots[j], pressed[j], now).1 == LongPress
  }

  /** Whether button `j` has no visible effect on this tick: no short press and no LED toggle. */
  predicate QuietAt(st: State, pressed: seq<bool>, now: nat, j: nat)
    requires |st.slots| == ButtonCount && |pressed| == ButtonCount && j < ButtonCount
  {
    !ShortAt(st, pressed, now, j) && !(LongAt(st, pressed, now, j) && TogglesLeds(j))
  }

  /**
   * Whether the long presses of buttons `i` onwards flip the LEDs: the two
   * LED buttons, 0 and 3, each toggle once, so the LEDs flip when exactly
   * one of those at or after `i` fires long.
   */
  predicate FlipsLedsFrom(st: State, pressed: seq<bool>, now: nat, i: nat)
    requires |st.slots| == ButtonCount && |pressed| == ButtonCount
  {
    (i <= 0 && LongAt(st, pressed, now, 0)) != (i <= 3 && LongAt(st, pressed, now, 3))
  }

  /** Whether no button from `i` onwards completes a short press on this tick. */
  predicate NoShortFrom(st: State, pressed: seq<bool>, now: nat, i: nat)
    requires |st.slots| == ButtonCount && |pressed| == ButtonCount
  {
    forall j :: i <= j < ButtonCount ==> !ShortAt(st, pressed, now, j)
  }

  /** How many times `acts` sends button `j`'s media code. */
  function SendCount(acts: seq<Action>, j: nat): nat
    requires j < ButtonCount
  {
    multiset(acts)[Send(ButtonKeys[j])]
  }

  /** Handles buttons `i` up to the last, in order. */
  function Scan(st: State, pressed: seq<bool>, now: nat, i: nat): (r: (State, seq<Action>))
    requires |st.slots| == ButtonCount && |pressed| == ButtonCount && i <= ButtonCount
    ensures |r.0.slots| == ButtonCount
    ensures forall j :: 0 <= j < i ==> r.0.slots[j] == st.slots[j]
    ensures forall j :: i <= j < ButtonCount ==>
              r.0.slots[j] == Classify(st.slots[j], pressed[j], now).0
    ensures r.0.brightness == st.brightness && r.0.colorIndex == st.colorIndex
    ensures forall j :: i <= j < ButtonCount ==>
              (Send(ButtonKeys[j]) in r.1 <==> ShortAt(st, pressed, now, j))
    ensures forall j :: 0 <= j < i ==> Send(ButtonKeys[j]) !in r.1
    ensures r.0.ledEnabled == (st.ledEnabled != FlipsLedsFrom(st, pressed, now, i))
    ensures NoShortFrom(st, pressed, now, i) ==> r.0.lastColor == st.lastColor
    ensures forall j :: (i <= j < ButtonCount && ShortAt(st, pressed, now, j) &&
                        NoShortFrom(st, pressed, now, j + 1)) ==> r.0.lastColor == ColorMap[j]
    ensures r.1 == [] <==> forall j :: i <= j < ButtonCount ==> QuietAt(st, pressed, now, j)
    ensures r.1 != [] ==> r.1[|r.1| - 1] == Fill(DisplayedColor(r.0))
    decreases ButtonCount - i
  {
    if i == ButtonCount then
      (st, [])
    else
      var (s1, a1) := ButtonStep(st, i, pressed[i], now);
      var (s2, a2) := Scan(s1, pressed, now, i + 1);
      ScanSends(st, s1, a1, a2, pressed, now, i);
      ScanLeds(st, s1, a1, s2, a2, pressed, now, i);
      (s2, a1 + a2)
  }

  /** The sends of button `i`'s step followed by the later buttons' scan are exactly the short presses. */
  lemma ScanSends(st: State, s1: State, a1: seq<Action>, a2: seq<Action>,
                  pressed: seq<bool>, now: nat, i: nat)
    requires |st.slots| == ButtonCount && |pressed| == ButtonCount && i < ButtonCount
    requires (s1, a1) == ButtonStep(st, i, pressed[i], now)
    requires forall j :: i + 1 <= j < ButtonCount ==>
               (Send(ButtonKeys[j]) in a2 <==> ShortAt(s1, pressed, now, j))
    requires forall j :: 0 <= j < i + 1 ==> Send(ButtonKeys[j]) !in a2
    ensures forall j :: i <= j < ButtonCount ==>
              (Send(ButtonKeys[j]) in a1 + a2 <==> ShortAt(st, pressed, now, j))
    ensures forall j :: 0 <= j < i ==> Send(ButtonKeys[j]) !in a1 + a2
  {
  }

  /** A pass from button `i` on sends each of those buttons' codes once if it completes a short press, and never otherwise. */
  lemma {:induction false} ScanSendsOnce(st: State, pressed: seq<bool>, now: nat, i: nat)
    requires |st.slots| == ButtonCount && |pressed| == ButtonCount && i <= ButtonCount
    ensures forall j :: i <= j < ButtonCount ==>
              SendCount(Scan(st, pressed, now, i).1, j) == (if ShortAt(st, pressed, now, j) then 1 else 0)
    decreases ButtonCount - i
  {
    if i < ButtonCount {
      var step := ButtonStep(st, i, pressed[i], now);
      ScanUnfold(st, pressed, now, i);
      ScanSendsOnce(step.0, pressed, now, i + 1);
      ScanCounts(st, step.0, step.1, Scan(step.0, pressed, now, i + 1).1, pressed, now, i);
    }
  }

  /** A pass from button `i` is button `i`'s step followed by the pass from `i + 1`. */
  lemma ScanUnfold(st: State, pressed: seq<bool>, now: nat, i: nat)
    requires |st.slots| == ButtonCount && |pressed| == ButtonCount && i < ButtonCount
    ensures var step := ButtonStep(st, i, pressed[i], now);
            && Scan(st, pressed, now, i).1 == step.1 + Scan(step.0, pressed, now, i + 1).1
            && Send(ButtonKeys[i]) !in Scan(step.0, pressed, now, i + 1).1
  {
  }

  /** The send counts of button `i`'s step followed by the later buttons' scan. */
  lemma ScanCounts(st: State, s1: State, a1: seq<Action>, a2: seq<Action>,
                   pressed: seq<bool>, now: nat, i: nat)
    requires |st.slots| == ButtonCount && |pressed| == ButtonCount && i < ButtonCount
    requires (s1, a1) == ButtonStep(st, i, pressed[i], now)
    requires Send(ButtonKeys[i]) !in a2
    requires forall j :: i + 1 <= j < ButtonCount ==>
               SendCount(a2, j) == (if ShortAt(s1, pressed, now, j) then 1 else 0)
    ensures forall j :: i <= j < ButtonCount ==>
              SendCount(a1 + a2, j) == (if ShortAt(st, pressed, now, j) then 1 else 0)
  {
    forall j | i <= j < ButtonCount
      ensures SendCount(a1 + a2, j) == (if ShortAt(st, pressed, now, j) then 1 else 0)
    {
      var code := Send(ButtonKeys[j]);
      assert multiset(a1 + a2) == multiset(a1) + multiset(a2);
      if j == i {
        assert multiset(a2)[code] == 0;
        if ShortAt(st, pressed, now, i) {
          var led := ApplyLedState(s1);
          assert a1 == [code] + led;
          assert code !in led;
          assert multiset(a1) == multiset([code]) + multiset(led);
          assert multiset(a1)[code] == 1;
        } else {
          assert code !in a1;
          assert multiset(a1)[code] == 0;
        }
      } else {
        assert ButtonKeys[j] != ButtonKeys[i];
        assert code !in a1;
        assert multiset(a1)[code] == 0;
        assert s1.slots[j] == st.slots[j];
        assert ShortAt(s1, pressed, now, j) == ShortAt(st, pressed, now, j);
      }
    }
  }

  /**
   * The LED state, colour and trailing fill of button `i`'s step followed by
   * the later buttons' scan, in terms of the events of this tick.
   */
  lemma ScanLeds(st: State, s1: State, a1: seq<Action>, s2: State, a2: seq<Action>,
                 pressed: seq<bool>, now: nat, i: nat)
    requires |st.slots| == ButtonCount && |pressed| == ButtonCount && i < ButtonCount
    requires (s1, a1) == ButtonStep(st, i, pressed[i], now)
    requires |s1.slots| == ButtonCount
    requires s2.ledEnabled == (s1.ledEnabled != FlipsLedsFrom(s1, pressed, now, i + 1))
    requires NoShortFrom(s1, pressed, now, i + 1) ==> s2.lastColor == s1.lastColor
    requires forall j :: (i + 1 <= j < ButtonCount && ShortAt(s1, pressed, now, j) &&
                         NoShortFrom(s1, pressed, now, j + 1)) ==> s2.lastColor == ColorMap[j]
    requires a2 == [] <==> forall j :: i + 1 <= j < ButtonCount ==> QuietAt(s1, pressed, now, j)
    requires a2 != [] ==> a2[|a2| - 1] == Fill(DisplayedColor(s2))
    ensures s2.ledEnabled == (st.ledEnabled != FlipsLedsFrom(st, pressed, now, i))
    ensures NoShortFrom(st, pressed, now, i) ==> s2.lastColor == st.lastColor
    ensures forall j :: (i <= j < ButtonCount && ShortAt(st, pressed, now, j) &&
                        NoShortFrom(st, pressed, now, j + 1)) ==> s2.lastColor == ColorMap[j]
    ensures a1 + a2 == [] <==> forall j :: i <= j < ButtonCount ==> QuietAt(st, pressed, now, j)
    ensures a1 + a2 != [] ==> (a1 + a2)[|a1 + a2| - 1] == Fill(DisplayedColor(s2))
  {
    forall j | i + 1 <= j < ButtonCount
      ensures s1.slots[j] == st.slots[j]
      ensures ShortAt(s1, pressed, now, j) == ShortAt(st, pressed, now, j)
      ensures LongAt(s1, pressed, now, j) == LongAt(st, pressed, now, j)
      ensures QuietAt(s1, pressed, now, j) == QuietAt(st, pressed, now, j)
    {
    }
    assert NoShortFrom(s1, pressed, now, i + 1) == NoShortFrom(st, pressed, now, i + 1);
    assert FlipsLedsFrom(s1, pressed, now, i + 1) ==
           ((i + 1 <= 3 && LongAt(st, pressed, now, 3)));
    var ev := Classify(st.slots[i], pressed[i], now).1;
    assert ShortAt(st, pressed, now, i) <==> ev == ShortPress;
    assert LongAt(st, pressed, now, i) <==> ev == LongPress;
    assert a1 == [] <==> QuietAt(st, pressed, now, i);
    assert ev != ShortPress ==> s1.lastColor == st.lastColor;
    if a2 == [] {
      assert a1 + a2 == a1;
      if i + 1 <= 3 {
        assert QuietAt(s1, pressed, now, 3);
      }
      assert NoShortFrom(s1, pressed, now, i + 1) by {
        forall j | i + 1 <= j < ButtonCount
          ensures !ShortAt(s1, pressed, now, j)
        {
          assert QuietAt(s1, pressed, now, j);
        }
      }
      assert s2.ledEnabled == s1.ledEnabled && s2.lastColor == s1.lastColor;
    } else {
      assert (a1 + a2)[|a1 + a2| - 1] == a2[|a2| - 1];
    }
  }

  /** The main button-handling pass of one loop iteration, over every button. */
  function Tick(st: State, pressed: seq<bool>, now: nat): (r: (State, seq<Action>))
    requires |st.slots| == ButtonCount && |pressed| == ButtonCount
    ensures Valid(st) ==> Valid(r.0)
    ensures |r.0.slots| == ButtonCount
    ensures forall j :: 0 <= j < ButtonCount ==>
              r.0.slots[j] == Classify(st.slots[j], pressed[j], now).0
    ensures forall j :: 0 <= j < ButtonCount ==>
              (Send(ButtonKeys[j]) in r.1 <==> ShortAt(st, pressed, now, j))
    ensures forall j :: 0 <= j < ButtonCount ==>
              SendCount(r.1, j) == (if ShortAt(st, pressed, now, j) then 1 else 0)
    ensures r.0.brightness == st.brightness && r.0.colorIndex == st.colorIndex
    ensures r.0.ledEnabled == (st.ledEnabled != (LongAt(st, pressed, now, 0) != LongAt(st, pressed, now, 3)))
    ensures NoShortFrom(st, pressed, now, 0) ==> r.0.lastColor == st.lastColor
    ensures forall j :: (0 <= j < ButtonCount && ShortAt(st, pressed, now, j) &&
                        NoShortFrom(st, pressed, now, j + 1)) ==> r.0.lastColor == ColorMap[j]
    ensures r.1 == [] <==> forall j :: 0 <= j < ButtonCount ==> QuietAt(st, pressed, now, j)
    ensures r.1 != [] ==> r.1[|r.1| - 1] == Fill(DisplayedColor(r.0))
  {
    ScanSendsOnce(st, pressed, now, 0);
    Scan(st, pressed, now, 0)
  }

  /** Volume up, or else volume down, moves the brightness a quarter, clamped, and shows it. */
  function AdjustBrightness(st: State, volUp: bool, volDown: bool): (r: (State, seq<Action>))
    ensures r.0 == st.(brightness := r.0.brightness)
    ensures MinBrightness <= st.brightness <= MaxBrightness ==>
              MinBrightness <= r.0.brightness <= MaxBrightness
    ensures volUp && st.brightness + BrightnessStep <= MaxBrightness ==>
              r.0.brightness == st.brightness + BrightnessStep
    ensures volUp && st.brightness + BrightnessStep > MaxBrightness ==>
              r.0.brightness == MaxBrightness
    ensures !volUp && volDown && st.brightness - BrightnessStep >= MinBrightness ==>
              r.0.brightness == st.brightness - BrightnessStep
    ensures !volUp && volDown && st.brightness - BrightnessStep < MinBrightness ==>
              r.0.brightness == MinBrightness
    ensures !volUp && !volDown ==> r == (st, [])
    ensures volUp || volDown ==> r.1 == ApplyLedState(r.0)
  {
    if volUp then
      var s1 := st.(brightness := Min(MaxBrightness, st.brightness + BrightnessStep));
      (s1, ApplyLedState(s1))
    else if volDown then
      var s1 := st.(brightness := Max(MinBrightness, st.brightness - BrightnessStep));
      (s1, ApplyLedState(s1))
    else
      (st, [])
  }

  /**
   * Fast-forward steps the colour index forward, then rewind steps it back,
   * around the ten brightness-mode colours; each step selects its colour and
   * shows it.
   */
  function CycleColor(st: State, ffw: bool, rew: bool): (r: (State, seq<Action>))
    ensures r.0 == st.(colorIndex := r.0.colorIndex, lastColor := r.0.lastColor)
    ensures st.colorIndex < |BrightnessModeColors| ==> r.0.colorIndex < |BrightnessModeColors|
    ensures ffw && !rew ==> r.0.colorIndex == Succ(st.colorIndex, |BrightnessModeColors|)
    ensures !ffw && rew ==> r.0.colorIndex == Pred(st.colorIndex, |BrightnessModeColors|)
    ensures ffw && rew && st.colorIndex < |BrightnessModeColors| ==> r.0.colorIndex == st.colorIndex
    ensures !ffw && !rew ==> r == (st, [])
    ensures ffw || rew ==>
              && r.0.colorIndex < |BrightnessModeColors|
              && r.0.lastColor == BrightnessModeColors[r.0.colorIndex]
              && r.1 != [] && r.1[|r.1| - 1] == Fill(DisplayedColor(r.0))
  {
    var n := |BrightnessModeColors|;
    var s1 :=
      if ffw then
        var k := Succ(st.colorIndex, n);
        st.(colorIndex := k, lastColor := BrightnessModeColors[k])
      else st;
    var a1 := if ffw then ApplyLedState(s1) else [];
    var s2 :=
      if rew then
        var k := Pred(s1.colorIndex, n);
        s1.(colorIndex := k, lastColor := BrightnessModeColors[k])
      else s1;
    var a2 := if rew then ApplyLedState(s2) else [];
    (s2, a1 + a2)
  }

  /**
   * One pass of the brightness-mode loop over a snapshot of the four buttons
   * it reads: the brightness step, then the colour steps. Something is shown
   * exactly when one of the buttons is held, and the strip ends on the
   * displayed colour.
   */
  function BrightnessModeStep(st: State, volUp: bool, volDown: bool, ffw: bool, rew: bool)
    : (r: (State, seq<Action>))
    ensures Valid(st) ==> Valid(r.0)
    ensures r.0.slots == st.slots && r.0.ledEnabled == st.ledEnabled
    ensures r.0.brightness == AdjustBrightness(st, volUp, volDown).0.brightness
    ensures r.0.colorIndex == CycleColor(st, ffw, rew).0.colorIndex
    ensures r.0.lastColor == CycleColor(st, ffw, rew).0.lastColor
    ensures (r.1 == []) <==> !volUp && !volDown && !ffw && !rew
    ensures r.1 != [] ==> r.1[|r.1| - 1] == Fill(DisplayedColor(r.0))
  {
    var (s1, a1) := AdjustBrightness(st, volUp, volDown);
    var (s2, a2) := CycleColor(s1, ffw, rew);
    (s2, a1 + a2)
  }

  /** A snapshot of one button at one tick. */
  datatype Sample = Sample(pressed: bool, now: nat)

  /** The classifier run over one button's samples from `s`: the final slot and one event per sample. */
  function Run(s: Slot, ts: seq<Sample>): (r: (Slot, seq<Event>))
    ensures |r.1| == |ts|
    decreases |ts|
  {
    if ts == [] then (s, [])
    else
      var (s1, es) := Run(s, ts[..|ts| - 1]);
      var (s2, e) := Classify(s1, ts[|ts| - 1].pressed, ts[|ts| - 1].now);
      (s2, es + [e])
  }

  /** How many of the events are long or short presses. */
  function Fired(es: seq<Event>): nat
  {
    if es == [] then 0
    else Fired(es[..|es| - 1]) + (if es[|es| - 1] == NoEvent then 0 else 1)
  }

  predicate AllPressed(ts: seq<Sample>)
  {
    forall k :: 0 <= k < |ts| ==> ts[k].pressed
  }

  /** Whether sample `k` lies more than `LongPressMs` after the first sample. */
  predicate Past(ts: seq<Sample>, k: nat)
    requires k < |ts|
  {
    ts[k].now - ts[0].now > LongPressMs
  }

  /**
   * A button held from idle: the start stays at the first sample's time, the
   * long press fires exactly on the first sample more than `LongPressMs`
   * later and on no other, and no short press is reported while held.
   */
  lemma {:induction false} HoldFiresLongOnce(ts: seq<Sample>)
    requires |ts| > 0 && AllPressed(ts)
    ensures var r := Run(Idle, ts);
            && r.0.start == Some(ts[0].now)
            && Fired(r.1) <= 1
            && (r.0.longFired <==> Fired(r.1) == 1)
            && (r.0.longFired <==> exists m :: 0 <= m < |ts| && Past(ts, m))
            && (forall k :: 0 <= k < |ts| ==> r.1[k] != ShortPress)
            && (forall k :: 0 <= k < |ts| ==>
                  (r.1[k] == LongPress <==> Past(ts, k) && forall m :: 0 <= m < k ==> !Past(ts, m)))
  {
    var n := |ts|;
    var last := ts[n - 1];
    if n == 1 {
      assert ts[..0] == [];
      assert Run(Idle, ts[..0]) == (Idle, []);
      assert last.pressed;
      assert Classify(Idle, true, last.now) == (Slot(Some(last.now), false), NoEvent);
      var none: seq<Event> := [];
      assert none + [NoEvent] == [NoEvent];
      assert Run(Idle, ts) == (Slot(Some(last.now), false), [NoEvent]);
      assert !Past(ts, 0);
    } else {
      var init := ts[..n - 1];
      assert AllPressed(init);
      HoldFiresLongOnce(init);
      var prev := Run(Idle, init);
      var s1, es := prev.0, prev.1;
      var c := Classify(s1, last.pressed, last.now);
      var e := c.1;
      assert Run(Idle, ts) == (c.0, es + [e]);
      assert (es + [e])[..n - 1] == es;
      assert init[0] == ts[0];
      forall m | 0 <= m < n - 1
        ensures Past(init, m) == Past(ts, m)
      {
        assert init[m] == ts[m];
      }
      assert (exists m :: 0 <= m < n && Past(ts, m))
             <==> (exists m :: 0 <= m < n - 1 && Past(init, m)) || Past(ts, n - 1);
      forall k | 0 <= k < n
        ensures (es + [e])[k] == LongPress <==>
                Past(ts, k) && forall m :: 0 <= m < k ==> !Past(ts, m)
      {
        if k < n - 1 {
          assert (es + [e])[k] == es[k];
          assert forall m :: 0 <= m < k ==> Past(init, m) == Past(ts, m);
        } else {
          assert (forall m :: 0 <= m < k ==> !Past(ts, m)) <==> !s1.longFired;
        }
      }
    }
  }

  /**
   * A whole press cycle of one button (pressed on one or more ticks, then
   * released) reports exactly one press: short at the release exactly when
   * the long press never fired. The button ends up idle.
   */
  lemma {:induction false} PressCycleFiresOnce(ts: seq<Sample>)
    requires |ts| >= 2 && AllPressed(ts[..|ts| - 1]) && !ts[|ts| - 1].pressed
    ensures var r := Run(Idle, ts);
            && r.0 == Idle
            && Fired(r.1) == 1
            && (r.1[|ts| - 1] == ShortPress <==> forall k :: 0 <= k < |ts| - 1 ==> !Past(ts, k))
  {
    var n := |ts|;
    var init := ts[..n - 1];
    HoldFiresLongOnce(init);
    var prev := Run(Idle, init);
    var s1, es := prev.0, prev.1;
    var c := Classify(s1, false, ts[n - 1].now);
    var e := c.1;
    assert Run(Idle, ts) == (c.0, es + [e]);
    assert (es + [e])[..n - 1] == es;
    assert init[0] == ts[0];
    forall m | 0 <= m < n - 1
      ensures Past(init, m) == Past(ts, m)
    {
      assert init[m] == ts[m];
    }
  }

  /** Two long presses of an LED button restore the LED state and the displayed colour. */
  lemma LongPressTwiceRestoresLeds(st: State, i: nat, t1: nat, t2: nat)
    requires |st.slots| == ButtonCount && TogglesLeds(i)
    requires !st.slots[i].longFired && st.slots[i].start == Some(t1)
    requires t1 + LongPressMs < t2
    ensures var s1 := ButtonStep(st, i, true, t2).0;
            var s2 := ButtonStep(s1, i, false, t2).0;
            var s3 := ButtonStep(s2, i, true, t2).0;
            var s4 := ButtonStep(s3, i, true, t2 + LongPressMs + 1).0;
            && DisplayedColor(s1) == (if st.ledEnabled then Black else st.lastColor)
            && s4.ledEnabled == st.ledEnabled
            && DisplayedColor(s4) == DisplayedColor(st)
  {
  }
}

=== FILE: macropad.dfy ===
/**
 * The MacroPad main loop: a profile menu toggled by a long encoder click,
 * encoder rotation that selects a profile, a shortcut or the volume, a short
 * encoder click that runs the selected shortcut, and per-profile key maps.
 *
 * One loop iteration is the pure function `Step`; every HID report and
 * display update it would perform is returned as an `Action`.
 */
module Macropad {
  import opened Basics
  import opened Hid

  /** A release after more than this many milliseconds of holding toggles the menu. */
  const LongHoldMs: nat := 1000
  /** The menu closes once more than this many milliseconds pass without menu activity. */
  const MenuIdleMs: nat := 60000

  /** One element of a shortcut: text typed through the keyboard layout, or a key pressed and held. */
  datatype Item = Text(text: string) | Code(key: Key)

  /**
   * A profile. A profile without a key map has an empty `keys`; a profile
   * without shortcuts has empty `shortcuts`.
   */
  datatype Profile = Profile(
    name: string,
    displayName: string,
    rotation: int,
    volume: bool,
    keys: map<nat, Key>,
    shortcuts: seq<seq<Item>>)

  /**
   * What the loop needs of its profile table: at least one profile, and a
   * shortcut list to cycle through in every profile where the encoder does
   * not control the volume (otherwise the modulo by its length fails).
   */
  predicate ValidConfig(profiles: seq<Profile>)
  {
    && |profiles| > 0
    && forall i :: 0 <= i < |profiles| && !profiles[i].volume ==> |profiles[i].shortcuts| > 0
  }

  /** The profile table the firmware ships with. */
  function Profiles(): seq<Profile>
  {
    [ Profile("NumPad", "NumPad", 0, true,
              map[0 := One, 1 := Two, 2 := Three, 3 := Four, 4 := Five, 5 := Six,
                  6 := Seven, 7 := Eight, 8 := Nine, 9 := Zero, 10 := Minus, 11 := Equals],
              []),
      Profile("Gaming (WASD)", "Gaming\nWASD", 90, true,
              map[8 := W, 4 := A, 7 := S, 10 := D, 1 := Shift, 3 := Space,
                  6 := Space, 9 := Space, 5 := Q, 11 := E],
              []),
      Profile("Mac Shortcuts", "Mac\nShortcuts", 0, false, map[],
              [ [Text("Command"), Text("SPACE"), Text("safari"), Code(Return)],
                [Text("Command"), Text("SPACE"), Text("steam"), Code(Return)],
                [Text("Command"), Text("SHIFT"), Text("3")],
                [] ]),
      Profile("Windows Shortcuts", "Windows\nShortcuts", 0, false, map[],
              [ [Code(Gui), Text("r"), Code(Return), Text("https://youtube.com"), Code(Return)],
                [Code(Gui), Text("r"), Code(Return), Text("steam"), Code(Return)],
                [Code(Gui), Code(E)],
                [] ]),
      Profile("Linux Shortcuts", "Linux\nShortcuts", 0, false, map[],
              [ [Code(Control), Code(Alt), Text("t")],
                [Text("steam")],
                [Text("echo 'Hello Linux'")],
                [] ])
    ]
  }

  lemma ProfilesValid()
    ensures ValidConfig(Profiles())
  {
  }

  /** The loop's globals. `pressedTime` is the encoder-switch press start, if one is recorded. */
  datatype State = State(
    menu: bool,
    profile: nat,
    shortcut: nat,
    lastPosition: int,
    pressedTime: Option<nat>,
    lastAction: nat)

  /** A key transition from the key matrix; a transition that is not a press is a release. */
  datatype KeyEvent = KeyEvent(key: nat, pressed: bool)

  /** One snapshot of the inputs read at the top of an iteration. */
  datatype Inputs = Inputs(
    keyEvent: Option<KeyEvent>,
    switchPressed: bool,
    switchReleased: bool,
    position: int)

  /** Effects of an iteration on the keyboard, the consumer control and the display. */
  datatype Action =
    | Write(text: string)          // type a string through the keyboard layout
    | Press(key: Key)              // press (and hold) a key
    | ReleaseAll                   // release every pressed key
    | Consumer(code: ConsumerCode) // send a consumer-control code
    | LoadProfile(index: nat)      // rotate the display and show the profile's name
    | ShowMenu                     // rotation 0, "Profile Menu" / "Rotate to select"
    | ShowMenuChoice(index: nat)   // "Profile Menu" / the name of the highlighted profile
    | ShowOption(number: nat)      // the profile's name / "Option <number>"

  /** Whether an action is a USB HID report rather than a display update. */
  predicate IsHid(a: Action)
  {
    a.Write? || a.Press? || a.ReleaseAll? || a.Consumer?
  }

  /** The state at start-up, when the encoder reads `position` at time `now`. */
  function Init(position: int, now: nat): (r: (State, seq<Action>))
    ensures !r.0.menu && r.0.profile == 0 && r.0.shortcut == 0
    ensures r.0.lastPosition == position && r.0.pressedTime == None && r.0.lastAction == now
    ensures r.1 == [LoadProfile(0)]
  {
    (State(false, 0, 0, position, None, now), [LoadProfile(0)])
  }

  /** The reachable states: the profile exists, and a non-zero shortcut index is a valid one. */
  predicate Valid(st: State, profiles: seq<Profile>)
  {
    && st.profile < |profiles|
    && (st.menu ==> st.shortcut == 0)
    && (st.shortcut != 0 ==>
          !profiles[st.profile].volume && st.shortcut < |profiles[st.profile].shortcuts|)
  }

  /** A shortcut item's effect: text is typed through the keyboard layout, a keycode is pressed. */
  function ItemAction(item: Item): (a: Action)
    ensures item.Text? ==> a == Write(item.text)
    ensures item.Code? ==> a == Press(item.key)
    ensures IsHid(a) && !a.ReleaseAll?
  {
    match item
    case Text(s) => Write(s)
    case Code(k) => Press(k)
  }

  /** Runs a shortcut: each item in order, then one release of every key. */
  function ProcessSequence(items: seq<Item>): (acts: seq<Action>)
    ensures |acts| == |items| + 1
    ensures forall j :: 0 <= j < |items| ==> acts[j] == ItemAction(items[j])
    ensures acts[|items|] == ReleaseAll
    ensures forall j :: 0 <= j < |items| ==> !acts[j].ReleaseAll?
    ensures forall a :: a in acts ==> IsHid(a)
  {
    if items == [] then [ReleaseAll]
    else [ItemAction(items[0])] + ProcessSequence(items[1..])
  }

  /**
   * How long the encoder switch was held, in milliseconds. A start time that
   * is absent, or is zero (false to Python's truth test), counts as held 0.
   */
  function HeldMs(start: Option<nat>, now: nat): (held: int)
    ensures start.None? || start.value == 0 ==> held == 0
    ensures start.Some? && start.value != 0 ==> held == now - start.value
  {
    if start.Some? && start.value != 0 then now - start.value else 0
  }

  /** Closes the menu once it has been idle for too long. */
  function Timeout(st: State, now: nat): (r: (State, seq<Action>))
    ensures st.menu && now - st.lastAction > MenuIdleMs ==>
              r.0 == st.(menu := false) && r.1 == [LoadProfile(st.profile)]
    ensures !(st.menu && now - st.lastAction > MenuIdleMs) ==> r == (st, [])
  {
    if st.menu && now - st.lastAction > MenuIdleMs then
      (st.(menu := false), [LoadProfile(st.profile)])
    else
      (st, [])
  }

  /** The press start recorded after the switch's pressed edge has been seen. */
  function StartAfterPress(st: State, pressed: bool, now: nat): (t: Option<nat>)
    ensures st.pressedTime.Some? ==> t == st.pressedTime
    ensures st.pressedTime.None? && pressed ==> t == Some(now)
    ensures st.pressedTime.None? && !pressed ==> t == None
  {
    if pressed && st.pressedTime.None? then Some(now) else st.pressedTime
  }

  /**
   * The encoder switch: a press records its start time once; a release after
   * a long hold toggles the menu, and any other release outside the menu in a
   * shortcut profile runs the selected shortcut if the index is in range.
   */
  function Switch(st: State, profiles: seq<Profile>, pressed: bool, released: bool, now: nat)
    : (r: (State, seq<Action>))
    requires st.profile < |profiles|
    ensures !released ==> r.1 == []
    ensures !released && st.pressedTime.Some? ==> r.0 == st
    ensures !released && pressed && st.pressedTime.None? ==> r.0 == st.(pressedTime := Some(now))
    ensures !released && !pressed ==> r.0 == st
    ensures released ==> r.0.pressedTime == None && r.0.profile == st.profile
    ensures released && HeldMs(StartAfterPress(st, pressed, now), now) > LongHoldMs ==>
              && r.0.menu == !st.menu
              && r.0.shortcut == 0
              && r.0.lastAction == now
              && r.0.lastPosition == st.lastPosition
              && r.1 == (if r.0.menu then [ShowMenu] else [LoadProfile(st.profile)])
    ensures released && HeldMs(StartAfterPress(st, pressed, now), now) <= LongHoldMs ==>
              r.0 == st.(pressedTime := None)
    ensures released && HeldMs(StartAfterPress(st, pressed, now), now) <= LongHoldMs ==>
              r.1 == (if !st.menu && !profiles[st.profile].volume
                         && st.shortcut < |profiles[st.profile].shortcuts|
                      then ProcessSequence(profiles[st.profile].shortcuts[st.shortcut])
                      else [])
  {
    var start := StartAfterPress(st, pressed, now);
    if !released then
      (st.(pressedTime := start), [])
    else
      var held := HeldMs(start, now);
      var cleared := st.(pressedTime := None);
      if held > LongHoldMs then
        var open := !st.menu;
        (cleared.(menu := open, shortcut := 0, lastAction := now),
         if open then [ShowMenu] else [LoadProfile(st.profile)])
      else if !st.menu && !profiles[st.profile].volume then
        var shortcuts := profiles[st.profile].shortcuts;
        (cleared,
         if st.shortcut < |shortcuts| then ProcessSequence(shortcuts[st.shortcut]) else [])
      else
        (cleared, [])
  }

  /**
   * Encoder rotation. Only the sign of the change matters: in the menu it
   * moves the highlighted profile, in a shortcut profile the shortcut index,
   * and otherwise it sends one volume step.
   */
  function Rotate(st: State, profiles: seq<Profile>, position: int, now: nat)
    : (r: (State, seq<Action>))
    requires ValidConfig(profiles) && st.profile < |profiles|
    ensures r.0.lastPosition == position
    ensures r.0.menu == st.menu && r.0.pressedTime == st.pressedTime
    ensures r.0.profile < |profiles|
    ensures position == st.lastPosition ==> r == (st, [])
    ensures position != st.lastPosition && st.menu ==>
              && r.0.profile == StepBy(st.profile, |profiles|, position > st.lastPosition)
              && r.0.shortcut == st.shortcut
              && r.0.lastAction == now
              && r.1 == [ShowMenuChoice(r.0.profile)]
    ensures position != st.lastPosition && !st.menu && !profiles[st.profile].volume ==>
              && r.0.profile == st.profile
              && r.0.shortcut == StepBy(st.shortcut, |profiles[st.profile].shortcuts|,
                                        position > st.lastPosition)
              && r.0.lastAction == st.lastAction
              && r.1 == [ShowOption(r.0.shortcut + 1)]
    ensures position != st.lastPosition && !st.menu && profiles[st.profile].volume ==>
              && r.0 == st.(lastPosition := position)
              && r.1 == [Consumer(if position > st.lastPosition then VolumeIncrement
                                  else VolumeDecrement)]
  {
    if position == st.lastPosition then
      (st, [])
    else
      var up := position > st.lastPosition;
      var profile := profiles[st.profile];
      if st.menu then
        var p := StepBy(st.profile, |profiles|, up);
        (st.(profile := p, lastPosition := position, lastAction := now), [ShowMenuChoice(p)])
      else if !profile.volume then
        var k := StepBy(st.shortcut, |profile.shortcuts|, up);
        (st.(shortcut := k, lastPosition := position), [ShowOption(k + 1)])
      else
        (st.(lastPosition := position),
         [Consumer(if up then VolumeIncrement else VolumeDecrement)])
  }

  /**
   * A key-matrix event. Outside the menu, in a profile with a key map, a
   * press of a mapped key presses its keycode and any release releases all
   * keys; otherwise the event has no effect.
   */
  function KeyActions(st: State, profiles: seq<Profile>, ev: Option<KeyEvent>)
    : (acts: seq<Action>)
    requires st.profile < |profiles|
    ensures ev.None? || st.menu || |profiles[st.profile].keys| == 0 ==> acts == []
    ensures ev.Some? && !st.menu && |profiles[st.profile].keys| > 0 ==>
              if ev.value.pressed then
                if ev.value.key in profiles[st.profile].keys
                then acts == [Press(profiles[st.profile].keys[ev.value.key])]
                else acts == []
              else acts == [ReleaseAll]
  {
    var keys := profiles[st.profile].keys;
    if ev.Some? && !st.menu && |keys| > 0 then
      if ev.value.pressed then
        if ev.value.key in keys then [Press(keys[ev.value.key])] else []
      else
        [ReleaseAll]
    else
      []
  }

  /** One iteration of the main loop, in the order the loop performs its stages. */
  function Step(st: State, profiles: seq<Profile>, inp: Inputs, now: nat)
    : (r: (State, seq<Action>))
    requires ValidConfig(profiles) && st.profile < |profiles|
    ensures r.0.profile < |profiles|
    ensures r.0.lastPosition == inp.position
    ensures r.0.menu ==> forall a :: a in r.1 ==> !IsHid(a)
  {
    var (s1, a1) := Timeout(st, now);
    var (s2, a2) := Switch(s1, profiles, inp.switchPressed, inp.switchReleased, now);
    var (s3, a3) := Rotate(s2, profiles, inp.position, now);
    var a4 := KeyActions(s3, profiles, inp.keyEvent);
    (s3, a1 + a2 + a3 + a4)
  }

  /** Every iteration keeps the loop's globals in the reachable set. */
  lemma StepPreservesValid(st: State, profiles: seq<Profile>, inp: Inputs, now: nat)
    requires ValidConfig(profiles) && Valid(st, profiles)
    ensures Valid(Step(st, profiles, inp, now).0, profiles)
  {
  }

  lemma InitValid(profiles: seq<Profile>, position: int, now: nat)
    requires ValidConfig(profiles)
    ensures Valid(Init(position, now).0, profiles)
  {
  }

  /**
   * In a reachable state the range check before running a shortcut never
   * fails: a short release outside the menu in a shortcut profile always runs
   * the selected shortcut, ending with one release of every key.
   */
  lemma ShortReleaseRunsShortcut(st: State, profiles: seq<Profile>, pressed: bool, now: nat)
    requires ValidConfig(profiles) && Valid(st, profiles)
    requires !st.menu && !profiles[st.profile].volume
    requires HeldMs(StartAfterPress(st, pressed, now), now) <= LongHoldMs
    ensures var r := Switch(st, profiles, pressed, true, now);
            && st.shortcut < |profiles[st.profile].shortcuts|
            && r.1 == ProcessSequence(profiles[st.profile].shortcuts[st.shortcut])
            && r.1[|r.1| - 1] == ReleaseAll
  {
  }

  /** Turning the encoder one way and then back restores the highlighted profile. */
  lemma MenuRotationRoundTrip(st: State, profiles: seq<Profile>, position: int, now: nat, later: nat)
    requires ValidConfig(profiles) && st.profile < |profiles|
    requires st.menu && position != st.lastPosition
    ensures var s1 := Rotate(st, profiles, position, now).0;
            Rotate(s1, profiles, st.lastPosition, later).0.profile == st.profile
  {
  }

  /** Turning the encoder one way and then back restores the selected shortcut. */
  lemma ShortcutRotationRoundTrip(st: State, profiles: seq<Profile>, position: int, now: nat, later: nat)
    requires ValidConfig(profiles) && Valid(st, profiles)
    requires !st.menu && !profiles[st.profile].volume && position != st.lastPosition
    ensures var s1 := Rotate(st, profiles, position, now).0;
            Rotate(s1, profiles, st.lastPosition, later).0.shortcut == st.shortcut
  {
  }

  /** Two long clicks in a row open and close the menu again, leaving the profile alone. */
  lemma LongClickTwiceRestoresMenu(st: State, profiles: seq<Profile>, t1: nat, t2: nat, t3: nat)
    requires st.profile < |profiles| && st.pressedTime.None?
    requires 0 < t1 && t1 + LongHoldMs < t2 && t2 + LongHoldMs < t3
    ensures var s1 := Switch(st, profiles, true, false, t1).0;
            var s2 := Switch(s1, profiles, false, true, t1 + LongHoldMs + 1).0;
            var s3 := Switch(s2, profiles, true, false, t2).0;
            var s4 := Switch(s3, profiles, false, true, t3).0;
            && s2.menu == !st.menu
            && s4.menu == st.menu
            && s4.profile == st.profile
            && s4.shortcut == 0
            && s4.pressedTime.None?
  {
  }

  /**
   * An iteration with no input change and no menu timeout changes nothing
   * and emits nothing.
   */
  lemma IdleStep(st: State, profiles: seq<Profile>, now: nat)
    requires ValidConfig(profiles) && st.profile < |profiles|
    requires !(st.menu && now - st.lastAction > MenuIdleMs)
    ensures Step(st, profiles, Inputs(None, false, false, st.lastPosition), now) == (st, [])
  {
    assert Timeout(st, now) == (st, []);
    assert Switch(st, profiles, false, false, now) == (st, []);
    assert Rotate(st, profiles, st.lastPosition, now) == (st, []);
    var none: seq<Action> := [];
    assert none + none + none + none == none;
  }

  /**
   * The menu idle timeout closes the menu and changes nothing else: with no
   * other input the state only loses `menu`.
   */
  lemma MenuTimeoutStep(st: State, profiles: seq<Profile>, now: nat)
    requires ValidConfig(profiles) && st.profile < |profiles|
    requires st.menu && now - st.lastAction > MenuIdleMs
    ensures Step(st, profiles, Inputs(None, false, false, st.lastPosition), now)
              == (st.(menu := false), [LoadProfile(st.profile)])
  {
    var s1 := st.(menu := false);
    assert Switch(s1, profiles, false, false, now) == (s1, []);
    assert Rotate(s1, profiles, st.lastPosition, now) == (s1, []);
    assert [LoadProfile(st.profile)] + [] + [] + [] == [LoadProfile(st.profile)];
  }
}

=== FILE: neotrinkey_mouse_clicker.dfy ===
/**
 * The two-pad NeoTrinkey auto-clicker: releasing a pad steps through seven
 * colours and a rainbow effect, holding a pad nudges the pixel brightness,
 * and the brightness sets how often a left click is sent.
 *
 * Brightness is kept in hundredths (0.1 is 10), times in milliseconds and
 * the click delay in microseconds.
 */
module NeoTrinkeyMouseClicker {
  import opened Basics

  /** A touch is long once it has lasted more than this many milliseconds. */
  const LongPressMs: nat := 1000
  /** Brightness bounds and the nudge per tick of a long touch, in hundredths. */
  const MinBrightness: int := 0
  const MaxBrightness: int := 100
  const BrightnessNudge: int := 1
  /** Click-delay bounds in microseconds (0.05 s and 2.0 s). */
  const MinClickDelayUs: nat := 50000
  const MaxClickDelayUs: nat := 2000000

  /** An RGB pixel colour. */
  datatype Color = Color(r: nat, g: nat, b: nat)

  /** The solid colours; the index one past the last selects the rainbow effect. */
  const Colors: seq<Color> :=
    [ Color(255, 0, 0), Color(0, 255, 0), Color(0, 0, 255), Color(255, 255, 0),
      Color(0, 255, 255), Color(255, 0, 255), Color(255, 255, 255) ]

  /** How many positions the colour index cycles through: the colours and the rainbow. */
  const CycleLength: nat := |Colors| + 1

  /**
   * The loop's globals. `start` is the start of the latest touch (shared by
   * both pads); it is absent until the first touch.
   */
  datatype State = State(
    touched: nat,
    last1: bool,
    last2: bool,
    start: Option<nat>,
    colorIndex: nat,
    brightness: int,
    lastClick: nat)

  /** Effects on the pixels and the mouse. */
  datatype Action =
    | Fill(color: Color)   // fill the pixels with a solid colour
    | Rainbow              // advance the rainbow effect
    | Click                // click the left mouse button

  function Init(now: nat): (st: State)
    ensures Valid(st)
    ensures st.colorIndex == 0 && !st.last1 && !st.last2
    ensures st.brightness == 10 && st.start == None && st.touched == now && st.lastClick == now
  {
    State(now, false, false, None, 0, 10, now)
  }

  /** The reachable states. */
  predicate Valid(st: State)
  {
    && st.colorIndex < CycleLength
    && MinBrightness <= st.brightness <= MaxBrightness
    && (st.last1 || st.last2 ==> st.start.Some?)
  }

  /** Rising edges: a pad that becomes touched is remembered and restarts the touch timer. */
  function Edges(st: State, touch1: bool, touch2: bool, now: nat): (r: State)
    ensures r.last1 == (st.last1 || touch1) && r.last2 == (st.last2 || touch2)
    ensures (touch1 && !st.last1) || (touch2 && !st.last2) ==>
              r.start == Some(now) && r.touched == now
    ensures !((touch1 && !st.last1) || (touch2 && !st.last2)) ==> r == st
    ensures r.colorIndex == st.colorIndex && r.brightness == st.brightness
    ensures r.lastClick == st.lastClick
  {
    var s1 := if touch1 && !st.last1 then st.(touched := now, last1 := true, start := Some(now)) else st;
    if touch2 && !s1.last2 then s1.(touched := now, last2 := true, start := Some(now)) else s1
  }

  /** Whether the current touch has lasted long enough to adjust the brightness. */
  predicate LongTouch(st: State, now: nat)
    requires st.last1 || st.last2 ==> st.start.Some?
  {
    (st.last1 || st.last2) && now - st.start.value > LongPressMs
  }

  /**
   * During a long touch, pad 1 raises the brightness by one hundredth up to
   * the maximum, or else pad 2 lowers it by one hundredth down to zero.
   */
  function Nudge(st: State, now: nat): (r: State)
    requires st.last1 || st.last2 ==> st.start.Some?
    ensures r == st.(brightness := r.brightness)
    ensures MinBrightness <= st.brightness <= MaxBrightness ==>
              MinBrightness <= r.brightness <= MaxBrightness
    ensures !LongTouch(st, now) ==> r.brightness == st.brightness
    ensures LongTouch(st, now) && st.last1 && st.brightness + BrightnessNudge <= MaxBrightness ==>
              r.brightness == st.brightness + BrightnessNudge
    ensures LongTouch(st, now) && st.last1 && st.brightness + BrightnessNudge > MaxBrightness ==>
              r.brightness == MaxBrightness
    ensures LongTouch(st, now) && !st.last1 && st.brightness - BrightnessNudge >= MinBrightness ==>
              r.brightness == st.brightness - BrightnessNudge
    ensures LongTouch(st, now) && !st.last1 && st.brightness - BrightnessNudge < MinBrightness ==>
              r.brightness == MinBrightness
  {
    if st.last1 && now - st.start.value > LongPressMs then
      st.(brightness := Min(MaxBrightness, st.brightness + BrightnessNudge))
    else if st.last2 && now - st.start.value > LongPressMs then
      st.(brightness := Max(MinBrightness, st.brightness - BrightnessNudge))
    else
      st
  }

  /**
   * Falling edges: releasing pad 1 moves the colour index one forward and
   * releasing pad 2 one back, around the colours and the rainbow, however
   * long the pad was held.
   */
  function Releases(st: State, touch1: bool, touch2: bool, now: nat): (r: State)
    ensures r.last1 == (st.last1 && touch1) && r.last2 == (st.last2 && touch2)
    ensures st.colorIndex < CycleLength ==> r.colorIndex < CycleLength
    ensures (st.last1 && !touch1) || (st.last2 && !touch2) ==> r.colorIndex < CycleLength
    ensures st.last1 && !touch1 && !(st.last2 && !touch2) ==>
              r.colorIndex == Succ(st.colorIndex, CycleLength)
    ensures st.last2 && !touch2 && !(st.last1 && !touch1) ==>
              r.colorIndex == Pred(st.colorIndex, CycleLength)
    ensures st.last1 && !touch1 && st.last2 && !touch2 && st.colorIndex < CycleLength ==>
              r.colorIndex == st.colorIndex
    ensures !(st.last1 && !touch1) && !(st.last2 && !touch2) ==> r == st
    ensures (st.last1 && !touch1) || (st.last2 && !touch2) ==> r.touched == now
    ensures r.start == st.start && r.brightness == st.brightness && r.lastClick == st.lastClick
  {
    var s1 :=
      if !touch1 && st.last1 then
        st.(colorIndex := Succ(st.colorIndex, CycleLength), last1 := false, touched := now)
      else st;
    var s2 :=
      if !touch2 && s1.last2 then
        s1.(colorIndex := Pred(s1.colorIndex, CycleLength), last2 := false, touched := now)
      else s1;
    s2
  }

  /** What the pixels show for a colour index: a solid colour, or the rainbow past the last one. */
  function Display(colorIndex: nat): (a: Action)
    ensures colorIndex < |Colors| <==> a.Fill?
    ensures colorIndex < |Colors| ==> a == Fill(Colors[colorIndex])
    ensures colorIndex >= |Colors| ==> a == Rainbow
  {
    if colorIndex < |Colors| then Fill(Colors[colorIndex]) else Rainbow
  }

  /**
   * The delay between clicks for a brightness: 2.0 s minus 1.95 s per unit
   * of brightness, kept within [0.05 s, 2.0 s].
   */
  function ClickDelayUs(brightness: int): (d: nat)
    ensures MinClickDelayUs <= d <= MaxClickDelayUs
    ensures MinBrightness <= brightness <= MaxBrightness ==>
              d == MaxClickDelayUs - brightness * (MaxClickDelayUs - MinClickDelayUs) / 100
    ensures brightness <= MinBrightness ==> d == MaxClickDelayUs
    ensures brightness >= MaxBrightness ==> d == MinClickDelayUs
  {
    var raw := MaxClickDelayUs - brightness * 19500;
    Max(MinClickDelayUs, Min(MaxClickDelayUs, raw))
  }

  /** A brighter setting never clicks more slowly. */
  lemma ClickDelayAntitone(b1: int, b2: int)
    requires b1 <= b2
    ensures ClickDelayUs(b2) <= ClickDelayUs(b1)
  {
  }

  /** A left click fires once the delay has passed since the previous one, and restarts the wait. */
  function ClickTick(st: State, now: nat): (r: (State, seq<Action>))
    ensures r.1 == [Click] <==> (now - st.lastClick) * 1000 >= ClickDelayUs(st.brightness)
    ensures r.1 == [] || r.1 == [Click]
    ensures r.1 == [Click] ==> r.0 == st.(lastClick := now)
    ensures r.1 == [] ==> r.0 == st
  {
    if (now - st.lastClick) * 1000 >= ClickDelayUs(st.brightness) then
      (st.(lastClick := now), [Click])
    else
      (st, [])
  }

  /** One iteration of the main loop. */
  function Step(st: State, touch1: bool, touch2: bool, now: nat): (r: (State, seq<Action>))
    requires Valid(st)
    ensures Valid(r.0)
    ensures !r.0.last1 <==> !touch1
    ensures !r.0.last2 <==> !touch2
    ensures |r.1| > 0 && r.1[0] == Display(r.0.colorIndex)
    ensures Click in r.1 <==> (now - st.lastClick) * 1000 >= ClickDelayUs(r.0.brightness)
    ensures Click in r.1 ==> r.0.lastClick == now
    ensures Click !in r.1 ==> r.0.lastClick == st.lastClick
  {
    var s1 := Edges(st, touch1, touch2, now);
    var s2 := Nudge(s1, now);
    var s3 := Releases(s2, touch1, touch2, now);
    var s4 := s3.(last1 := s3.last1 && touch1, last2 := s3.last2 && touch2);
    var (s5, clicks) := ClickTick(s4, now);
    (s5, [Display(s4.colorIndex)] + clicks)
  }

  /**
   * Releasing only pad 1 steps the colour forward, only pad 2 steps it back,
   * and releasing both on the same tick leaves it where it was, however long
   * the pads were held.
   */
  lemma StepReleaseCyclesColor(st: State, touch1: bool, touch2: bool, now: nat)
    requires Valid(st)
    ensures var r := Step(st, touch1, touch2, now).0;
            && (st.last1 && !touch1 && !(st.last2 && !touch2) ==>
                  r.colorIndex == Succ(st.colorIndex, CycleLength))
            && (st.last2 && !touch2 && !(st.last1 && !touch1) ==>
                  r.colorIndex == Pred(st.colorIndex, CycleLength))
            && (st.last1 && !touch1 && st.last2 && !touch2 ==> r.colorIndex == st.colorIndex)
            && (!(st.last1 && !touch1) && !(st.last2 && !touch2) ==> r.colorIndex == st.colorIndex)
  {
  }

  /**
   * Clicks are never closer than the minimum delay, and once the maximum
   * delay has passed since the last click the next tick clicks.
   */
  lemma ClickRateBounds(st: State, touch1: bool, touch2: bool, now: nat)
    requires Valid(st)
    ensures var r := Step(st, touch1, touch2, now);
            && (Click in r.1 ==> (now - st.lastClick) * 1000 >= MinClickDelayUs)
            && ((now - st.lastClick) * 1000 >= MaxClickDelayUs ==> Click in r.1)
  {
  }

  /** A long touch on both pads raises the brightness: pad 1 takes priority. */
  lemma BothPadsLongTouchBrightens(st: State, now: nat)
    requires Valid(st) && st.last1 && st.last2
    requires now - st.start.value > LongPressMs && st.brightness < MaxBrightness
    ensures Step(st, true, true, now).0.brightness == st.brightness + BrightnessNudge
  {
  }
}

=== FILE: wii_nunchuck.dfy ===
/**
 * The Wii Nunchuk adapter: the joystick and the C/Z buttons drive either the
 * arrow keys and two letter keys, or the mouse; holding C and Z together for
 * a second and letting go switches between the two.
 *
 * Times are milliseconds; joystick axes are the Nunchuk's bytes.
 */
module WiiNunchuck {
  import opened Basics
  import opened Hid

  /** A C+Z hold of at least this many milliseconds switches the mode on release. */
  const ModeHoldMs: nat := 1000
  /** The joystick's centre reading, and how far from it an arrow key engages. */
  const Center: int := 128
  const ArrowOffset: int := 40
  /** Offsets smaller than this are ignored in mouse mode. */
  const Deadzone: nat := 10

  /** A joystick axis reading. */
  type Byte = x: int | 0 <= x < 256

  /** The loop's globals; the two button flags record an ongoing C+Z hold. */
  datatype State = State(airMouse: bool, lastToggle: nat, cHeld: bool, zHeld: bool)

  /** Effects on the keyboard and the mouse. */
  datatype Action =
    | KeyPress(key: Key)
    | KeyRelease(key: Key)
    | KeyReleaseAll
    | MouseMove(dx: int, dy: int)
    | MousePress(button: MouseButton)
    | MouseRelease(button: MouseButton)
    | MouseReleaseAll

  function Init(): (st: State)
    ensures Valid(st) && !st.airMouse && !st.cHeld
  {
    State(false, 0, false, false)
  }

  /** The two hold flags are always set and cleared together. */
  predicate Valid(st: State)
  {
    st.cHeld == st.zHeld
  }

  /** Press a key when `down`, release it otherwise. */
  function KeyAction(k: Key, down: bool): (a: Action)
    ensures a == KeyPress(k) || a == KeyRelease(k)
    ensures a.KeyPress? <==> down
  {
    if down then KeyPress(k) else KeyRelease(k)
  }

  function ButtonAction(b: MouseButton, down: bool): (a: Action)
    ensures a == MousePress(b) || a == MouseRelease(b)
    ensures a.MousePress? <==> down
  {
    if down then MousePress(b) else MouseRelease(b)
  }

  predicate IsKeyAction(a: Action)
  {
    a.KeyPress? || a.KeyRelease? || a.KeyReleaseAll?
  }

  /** A press or release of one particular key. */
  predicate IsKeyEdge(a: Action)
  {
    a.KeyPress? || a.KeyRelease?
  }

  predicate IsMouseAction(a: Action)
  {
    a.MouseMove? || a.MousePress? || a.MouseRelease? || a.MouseReleaseAll?
  }

  /**
   * The keys keyboard mode asks to be held for a reading: an arrow for each
   * axis pushed far enough from the centre, B for C and A for Z.
   */
  function RequestedKeys(x: Byte, y: Byte, c: bool, z: bool): (ks: set<Key>)
    ensures ks <= ModeKeys
    ensures LeftArrow in ks <==> x < Center - ArrowOffset
    ensures RightArrow in ks <==> x > Center + ArrowOffset
    ensures DownArrow in ks <==> y < Center - ArrowOffset
    ensures UpArrow in ks <==> y > Center + ArrowOffset
    ensures !(LeftArrow in ks && RightArrow in ks) && !(DownArrow in ks && UpArrow in ks)
    ensures B in ks <==> c
    ensures A in ks <==> z
  {
    (if x < Center - ArrowOffset then {LeftArrow} else {})
    + (if x > Center + ArrowOffset then {RightArrow} else {})
    + (if y < Center - ArrowOffset then {DownArrow} else {})
    + (if y > Center + ArrowOffset then {UpArrow} else {})
    + (if c then {B} else {})
    + (if z then {A} else {})
  }

  /** The order in which keyboard mode visits its keys. */
  const ModeKeyOrder: seq<Key> := [LeftArrow, RightArrow, DownArrow, UpArrow, B, A]

  /** Presses or releases each key in turn according to its flag. */
  function KeyEdges(keys: seq<Key>, downs: seq<bool>): (acts: seq<Action>)
    requires |keys| == |downs|
    ensures |acts| == |keys|
    ensures forall i :: 0 <= i < |acts| ==> acts[i] == KeyAction(keys[i], downs[i])
  {
    seq(|keys|, i requires 0 <= i < |keys| => KeyAction(keys[i], downs[i]))
  }

  /**
   * Keyboard mode: presses exactly the requested keys and releases every
   * other key it drives, one action per key.
   */
  function KeyboardMode(x: Byte, y: Byte, c: bool, z: bool): (acts: seq<Action>)
    ensures |acts| == 6 && forall a :: a in acts ==> IsKeyEdge(a)
    ensures forall k :: KeyPress(k) in acts <==> k in RequestedKeys(x, y, c, z)
    ensures forall k :: KeyRelease(k) in acts <==> k in ModeKeys - RequestedKeys(x, y, c, z)
  {
    var acts := KeyEdges(ModeKeyOrder,
                         [ x < Center - ArrowOffset, x > Center + ArrowOffset,
                           y < Center - ArrowOffset, y > Center + ArrowOffset,
                           c, z ]);
    assert acts == [ KeyAction(LeftArrow, x < Center - ArrowOffset),
                     KeyAction(RightArrow, x > Center + ArrowOffset),
                     KeyAction(DownArrow, y < Center - ArrowOffset),
                     KeyAction(UpArrow, y > Center + ArrowOffset),
                     KeyAction(B, c), KeyAction(A, z) ];
    acts
  }

  /** The keys keyboard mode drives. */
  const ModeKeys: set<Key> := {LeftArrow, RightArrow, DownArrow, UpArrow, B, A}

  /** `int(d * 0.15)`: the offset scaled by 0.15, truncated toward zero. */
  function Scale(d: int): (r: int)
    ensures d >= 0 ==> 0 <= r && r * 100 <= d * 15 < (r + 1) * 100
    ensures d < 0 ==> r <= 0 && -r * 100 <= -d * 15 < (-r + 1) * 100
    ensures r != 0 <==> Abs(d) >= 7
  {
    if d >= 0 then d * 15 / 100 else -((-d) * 15 / 100)
  }

  /** An axis offset with the deadzone applied. */
  function Deadzoned(d: int): (r: int)
    ensures Abs(d) < Deadzone ==> r == 0
    ensures Abs(d) >= Deadzone ==> r == d
  {
    if Abs(d) < Deadzone then 0 else d
  }

  /** The mouse motion for a joystick reading: offsets from centre, Y inverted, deadzone, scaled. */
  function MouseDelta(x: Byte, y: Byte): (r: (int, int))
    ensures (r.0 != 0 || r.1 != 0) <==> Abs(x - Center) >= Deadzone || Abs(y - Center) >= Deadzone
    ensures (r.0 > 0 <==> x - Center >= Deadzone) && (r.0 < 0 <==> Center - x >= Deadzone)
    ensures (r.1 > 0 <==> Center - y >= Deadzone) && (r.1 < 0 <==> y - Center >= Deadzone)
    ensures -19 <= r.0 <= 19 && -19 <= r.1 <= 19
    ensures r == (Scale(Deadzoned(x - Center)), Scale(Deadzoned(Center - y)))
  {
    var dx := Deadzoned(x - Center);
    var dy := Deadzoned((y - Center) * -1);
    (Scale(dx), Scale(dy))
  }

  /**
   * Mouse mode: move the pointer when the joystick is outside the deadzone,
   * then Z holds the right button and C the left one.
   */
  function MouseMode(x: Byte, y: Byte, c: bool, z: bool): (acts: seq<Action>)
    ensures |acts| >= 2
    ensures forall a :: a in acts ==> IsMouseAction(a) && !a.MouseReleaseAll?
    ensures acts[0].MouseMove? <==> Abs(x - Center) >= Deadzone || Abs(y - Center) >= Deadzone
    ensures acts[0].MouseMove? ==> (acts[0].dx, acts[0].dy) == MouseDelta(x, y) && |acts| == 3
    ensures !acts[0].MouseMove? ==> |acts| == 2
    ensures forall j :: 1 <= j < |acts| ==> !acts[j].MouseMove?
    ensures MousePress(RightButton) in acts <==> z
    ensures MousePress(LeftButton) in acts <==> c
    ensures MousePress(RightButton) in acts <==> MouseRelease(RightButton) !in acts
    ensures MousePress(LeftButton) in acts <==> MouseRelease(LeftButton) !in acts
  {
    var (dx, dy) := MouseDelta(x, y);
    var move := if dx != 0 || dy != 0 then [MouseMove(dx, dy)] else [];
    move + [ButtonAction(RightButton, z), ButtonAction(LeftButton, c)]
  }

  /**
   * The C+Z hold: its start is recorded on the tick both buttons become
   * pressed together; when the hold ends, the mode switches if it lasted at
   * least `ModeHoldMs`, and a switch releases every key and mouse button.
   */
  function Combo(st: State, c: bool, z: bool, now: nat): (r: (State, seq<Action>))
    ensures c && z && !(st.cHeld && st.zHeld) ==> r.0.lastToggle == now
    ensures c && z && st.cHeld && st.zHeld ==> r.0.lastToggle == st.lastToggle
    ensures c && z ==> r.0.cHeld && r.0.zHeld && r.0.airMouse == st.airMouse
    ensures !(c && z) ==> !r.0.cHeld && !r.0.zHeld && r.0.lastToggle == st.lastToggle
    ensures r.0.airMouse != st.airMouse <==>
              !(c && z) && st.cHeld && st.zHeld && now - st.lastToggle >= ModeHoldMs
    ensures r.0.airMouse != st.airMouse ==> r.1 == [KeyReleaseAll, MouseReleaseAll]
    ensures r.0.airMouse == st.airMouse ==> r.1 == []
  {
    if c && z then
      var start := if !(st.cHeld && st.zHeld) then now else st.lastToggle;
      (st.(lastToggle := start, cHeld := true, zHeld := true), [])
    else if st.cHeld && st.zHeld && now - st.lastToggle >= ModeHoldMs then
      (st.(airMouse := !st.airMouse, cHeld := false, zHeld := false),
       [KeyReleaseAll, MouseReleaseAll])
    else
      (st.(cHeld := false, zHeld := false), [])
  }

  /** One iteration of the main loop. */
  function Step(st: State, x: Byte, y: Byte, c: bool, z: bool, now: nat): (r: (State, seq<Action>))
    ensures Valid(r.0)
    ensures c && z ==> r.1 == []
    ensures r.0.airMouse != st.airMouse ==> |r.1| >= 2 && r.1[..2] == [KeyReleaseAll, MouseReleaseAll]
    ensures !(c && z) && r.0.airMouse ==> forall a :: a in r.1 ==> IsMouseAction(a) || a.KeyReleaseAll?
    ensures !(c && z) && !r.0.airMouse ==> forall a :: a in r.1 ==> IsKeyAction(a) || a.MouseReleaseAll?
  {
    var (s1, a1) := Combo(st, c, z, now);
    var handled :=
      if c && z then []
      else if s1.airMouse then MouseMode(x, y, c, z)
      else KeyboardMode(x, y, c, z);
    (s1, a1 + handled)
  }

  /** The keyboard keys held down after one action, starting with `down` held. */
  function KeyApply(down: set<Key>, a: Action): set<Key>
  {
    match a
    case KeyPress(k) => down + {k}
    case KeyRelease(k) => down - {k}
    case KeyReleaseAll => {}
    case _ => down
  }

  /** The mouse buttons held down after one action, starting with `down` held. */
  function ButtonApply(down: set<MouseButton>, a: Action): set<MouseButton>
  {
    match a
    case MousePress(b) => down + {b}
    case MouseRelease(b) => down - {b}
    case MouseReleaseAll => {}
    case _ => down
  }

  /** The keyboard keys held down after `acts` are performed, starting with `down` held. */
  function KeysDown(down: set<Key>, acts: seq<Action>): set<Key>
    decreases |acts|
  {
    if acts == [] then down else KeysDown(KeyApply(down, acts[0]), acts[1..])
  }

  /** The mouse buttons held down after `acts` are performed, starting with `down` held. */
  function ButtonsDown(down: set<MouseButton>, acts: seq<Action>): set<MouseButton>
    decreases |acts|
  {
    if acts == [] then down else ButtonsDown(ButtonApply(down, acts[0]), acts[1..])
  }

  lemma {:induction false} KeysDownAppend(down: set<Key>, a: seq<Action>, b: seq<Action>)
    ensures KeysDown(down, a + b) == KeysDown(KeysDown(down, a), b)
    decreases |a|
  {
    if a != [] {
      assert (a + b)[0] == a[0];
      assert (a + b)[1..] == a[1..] + b;
      KeysDownAppend(KeyApply(down, a[0]), a[1..], b);
    } else {
      assert a + b == b;
    }
  }

  lemma {:induction false} ButtonsDownAppend(down: set<MouseButton>, a: seq<Action>, b: seq<Action>)
    ensures ButtonsDown(down, a + b) == ButtonsDown(ButtonsDown(down, a), b)
    decreases |a|
  {
    if a != [] {
      assert (a + b)[0] == a[0];
      assert (a + b)[1..] == a[1..] + b;
      ButtonsDownAppend(ButtonApply(down, a[0]), a[1..], b);
    } else {
      assert a + b == b;
    }
  }

  /** Mouse actions leave the keyboard alone. */
  lemma {:induction false} KeysDownIgnoresMouse(down: set<Key>, acts: seq<Action>)
    requires forall a :: a in acts ==> IsMouseAction(a)
    ensures KeysDown(down, acts) == down
    decreases |acts|
  {
    if acts != [] {
      assert acts[0] in acts;
      KeysDownIgnoresMouse(down, acts[1..]);
    }
  }

  /** Keyboard actions leave the mouse buttons alone. */
  lemma {:induction false} ButtonsDownIgnoresKeys(down: set<MouseButton>, acts: seq<Action>)
    requires forall a :: a in acts ==> IsKeyAction(a)
    ensures ButtonsDown(down, acts) == down
    decreases |acts|
  {
    if acts != [] {
      assert acts[0] in acts;
      ButtonsDownIgnoresKeys(down, acts[1..]);
    }
  }

  /** No key is pressed or released twice in `acts`. */
  predicate EachKeyOnce(acts: seq<Action>)
  {
    forall i, j :: 0 <= i < j < |acts| && IsKeyEdge(acts[i]) && IsKeyEdge(acts[j]) ==>
      acts[i].key != acts[j].key
  }

  /**
   * When every key is pressed or released at most once and nothing releases
   * all keys, a key ends up held exactly when it was pressed, or was already
   * held and not released.
   */
  lemma {:induction false} KeysDownEachOnce(down: set<Key>, acts: seq<Action>, k: Key)
    requires EachKeyOnce(acts)
    requires forall a :: a in acts ==> !a.KeyReleaseAll?
    ensures k in KeysDown(down, acts) <==>
              KeyPress(k) in acts || (KeyRelease(k) !in acts && k in down)
    decreases |acts|
  {
    if acts != [] {
      var rest := acts[1..];
      assert acts[0] in acts;
      assert EachKeyOnce(rest) by {
        forall i, j | 0 <= i < j < |rest| && IsKeyEdge(rest[i]) && IsKeyEdge(rest[j])
          ensures rest[i].key != rest[j].key
        {
          assert rest[i] == acts[i + 1] && rest[j] == acts[j + 1];
        }
      }
      KeysDownEachOnce(KeyApply(down, acts[0]), rest, k);
      if IsKeyEdge(acts[0]) && acts[0].key == k {
        forall j | 0 <= j < |rest|
          ensures rest[j] != KeyPress(k) && rest[j] != KeyRelease(k)
        {
          assert rest[j] == acts[j + 1];
        }
      }
      assert acts == [acts[0]] + rest;
    }
  }

  /** Keys visited in a list without repeats are each pressed or released once. */
  lemma KeyEdgesEachKeyOnce(keys: seq<Key>, downs: seq<bool>)
    requires |keys| == |downs|
    requires forall i, j :: 0 <= i < j < |keys| ==> keys[i] != keys[j]
    ensures EachKeyOnce(KeyEdges(keys, downs))
  {
  }

  /**
   * After keyboard mode runs, each of its keys is held exactly when the
   * reading asks for it, whatever was held before; other keys are untouched.
   */
  lemma KeyboardModeHeldKeys(down: set<Key>, x: Byte, y: Byte, c: bool, z: bool)
    ensures forall k :: k in KeysDown(down, KeyboardMode(x, y, c, z)) <==>
              if k in ModeKeys then k in RequestedKeys(x, y, c, z) else k in down
  {
    var acts := KeyboardMode(x, y, c, z);
    KeyEdgesEachKeyOnce(ModeKeyOrder,
                        [ x < Center - ArrowOffset, x > Center + ArrowOffset,
                          y < Center - ArrowOffset, y > Center + ArrowOffset,
                          c, z ]);
    forall k
      ensures k in KeysDown(down, acts) <==>
                if k in ModeKeys then k in RequestedKeys(x, y, c, z) else k in down
    {
      KeysDownEachOnce(down, acts, k);
    }
  }

  /** Switching into mouse mode leaves no keyboard key held. */
  lemma SwitchToMouseReleasesKeys(st: State, x: Byte, y: Byte, c: bool, z: bool, now: nat,
                                  keys: set<Key>)
    requires !st.airMouse
    ensures var r := Step(st, x, y, c, z, now);
            r.0.airMouse ==> KeysDown(keys, r.1) == {}
  {
    var r := Step(st, x, y, c, z, now);
    if r.0.airMouse {
      var release := [KeyReleaseAll, MouseReleaseAll];
      var handled := MouseMode(x, y, c, z);
      assert r.1 == release + handled;
      KeysDownAppend(keys, release, handled);
      assert KeysDown(keys, release) == {} by {
        assert release[1..] == [MouseReleaseAll];
        assert release[1..][1..] == [];
      }
      KeysDownIgnoresMouse({}, handled);
    }
  }

  /** Switching into keyboard mode leaves no mouse button held. */
  lemma SwitchToKeyboardReleasesButtons(st: State, x: Byte, y: Byte, c: bool, z: bool, now: nat,
                                        buttons: set<MouseButton>)
    requires st.airMouse
    ensures var r := Step(st, x, y, c, z, now);
            !r.0.airMouse ==> ButtonsDown(buttons, r.1) == {}
  {
    var r := Step(st, x, y, c, z, now);
    if !r.0.airMouse {
      var release := [KeyReleaseAll, MouseReleaseAll];
      var handled := KeyboardMode(x, y, c, z);
      assert r.1 == release + handled;
      ButtonsDownAppend(buttons, release, handled);
      assert ButtonsDown(buttons, release) == {} by {
        assert release[1..] == [MouseReleaseAll];
        assert release[1..][1..] == [];
      }
      ButtonsDownIgnoresKeys({}, handled);
    }
  }

  /** Switching into keyboard mode leaves exactly the keys the reading asks for held. */
  lemma SwitchToKeyboardHoldsRequestedKeys(st: State, x: Byte, y: Byte, c: bool, z: bool, now: nat,
                                           keys: set<Key>)
    requires st.airMouse
    ensures var r := Step(st, x, y, c, z, now);
            !r.0.airMouse ==>
              forall k :: k in KeysDown(keys, r.1) <==> k in RequestedKeys(x, y, c, z)
  {
    var r := Step(st, x, y, c, z, now);
    if !r.0.airMouse {
      var release := [KeyReleaseAll, MouseReleaseAll];
      var handled := KeyboardMode(x, y, c, z);
      assert r.1 == release + handled;
      KeysDownAppend(keys, release, handled);
      assert KeysDown(keys, release) == {} by {
        assert release[1..] == [MouseReleaseAll];
        assert release[1..][1..] == [];
      }
      KeyboardModeHeldKeys({}, x, y, c, z);
    }
  }

  /**
   * A complete C+Z hold from rest switches the mode exactly when it lasted
   * at least `ModeHoldMs`; either way the hold flags end up cleared.
   */
  lemma ComboHoldCycle(st: State, x: Byte, y: Byte, t0: nat, t1: nat, c1: bool, z1: bool)
    requires Valid(st) && !st.cHeld && !(c1 && z1)
    ensures var s1 := Step(st, x, y, true, true, t0).0;
            var s2 := Step(s1, x, y, c1, z1, t1).0;
            && s1.lastToggle == t0
            && (s2.airMouse != st.airMouse <==> t1 - t0 >= ModeHoldMs)
            && !s2.cHeld && !s2.zHeld
  {
  }
}
